=== FILE: README.md ===
# Federal Reserve speeches scraper, modelled in Dafny

`main.py` drives a browser through the Federal Reserve's speeches listing.
It ticks the filter checkbox of one speaker and walks the first
`total_pages - 1` listing pages, collecting the hrefs that match the
speaker's pattern. It then opens the links one by one and writes each speech
to a text file in the `data` directory, named after the speech's title and
date, until the first link that fails.

This project models the deterministic core of that script:

- `sanitizer.dfy` (module `Sanitizer`): `sanitize_filename`, which replaces
  each of `< > : " / \ | ? *` with `_`. It also models the later
  replacement of spaces.
- `dates.dfy` (module `Dates`): `strptime(date, "%B %d, %Y")` in its
  canonical English form, including its two failure kinds, and
  `strftime("%m_%d_%Y")`.
- `article.dfy` (module `Article`): the pure part of `generate_document`.
  - The fields are read in order.
  - The document text is laid out.
  - The file name is built.
  - The first missing field is reported, or the date error, or the file
    that is written.
- `speakers.dfy` (module `Speakers`): the speaker table and its lookup in
  `get_driver`.
- `links.dfy` (module `Links`): the link collector's pieces.
  - The target name: the configured speaker, or for "former" and "other"
    the last whitespace-separated word of the page's speaker caption.
  - The regular expression built from that name. Its unescaped dots are
    wildcards.
  - The filter that keeps matching hrefs in page order.
- `web.dfy` (module `Web`): the outside world as data.
  - The site: the filtered listings and the speech page behind each URL.
  - A `Browser` class for the WebDriver session: the listing shown, the
    page on screen, and a count of how often it was quit.
  - A `DataDirectory` class for the output directory.
- `scraper.dfy` (module `Scraper`): the `SeleniumOptions` and
  `TestGetPowellsLinks` classes, with methods that mirror the script's own
  methods.
  - `extract_speeches_links` is a `for` loop appending to the
    `speechLinks` field.
  - The pagination loop of `run` is a `while` loop with `break`.
  - The extraction loop of `run` writes files into the directory.
  - Each loop is proved against a recursive specification function:
    `CollectFrom` for pagination and `ExtractFrom` for extraction. Lemmas
    about those functions state what the script promises.
- `examples.dfy` (module `Examples`): worked examples.
  - "January 5, 2024" becomes "01_05_2024".
  - "Remarks on Economic Outlook" becomes
    "Remarks_on_Economic_Outlook_01_05_2024.txt".
  - Nonexistent days are refused.
- `wrappers.dfy` (module `Wrappers`): `Option` and `Result`.

Exceptions become `Result` values and error datatypes:

| Datatype | Raised by |
|---|---|
| `ExtractError` | `generate_document` |
| `CollectError` | `extract_speeches_links` |
| `SetupError` | `get_driver` |
| `Crash` | `run`, for exceptions nothing catches |

## Model

| member | source | states |
|---|---|---|
| Sanitizer.SanitizeFilename | main.py:83-85 | the sanitised name has the length of the original |
| Sanitizer.SanitizeFilenameAt | main.py:85 | each character in `<>:"/\|?*` becomes `_`; every other character, spaces included, is kept |
| Sanitizer.SanitizedIsClean | main.py:85 | a sanitised name holds none of the forbidden characters |
| Sanitizer.SanitizeIdempotent | main.py:85 | sanitising twice equals sanitising once |
| Sanitizer.ReplaceAllKeeps | main.py:85 | a name without forbidden characters is left unchanged |
| Sanitizer.ReplaceAllAt | main.py:85 | the substitution works character by character, keeping positions |
| Sanitizer.ReplaceAllAppend | main.py:85 | the substitution distributes over concatenation |
| Sanitizer.ReplaceSpaces | main.py:143 | `replace(" ", "_")` keeps the length |
| Sanitizer.ReplaceSpacesAt | main.py:143 | each space becomes `_`; every other character is kept |
| Sanitizer.ReplaceSpacesClean | main.py:143 | after the replacement no space is left, and no forbidden character is added |
| Sanitizer.ReplaceSpacesAppend | main.py:143 | the space replacement distributes over concatenation |
| Dates.DaysInMonth | main.py:137 | every month has 28 to 31 days; February has 29 exactly in a Gregorian leap year and 28 otherwise; exactly April, June, September and November have 30 (so the others have 31) |
| Dates.ParseMonth | main.py:137 | a month it returns is in range, and its full English name followed by a space begins the text |
| Dates.ParseMonthFinds | main.py:137 | a text beginning with a month's name and a space is read as that month; month names are prefix-free |
| Dates.ParseMonthMisses | main.py:137 | when no month is read, no month name followed by a space begins the text |
| Dates.MonthNamesPrefixFree | main.py:137 | no two month names followed by a space can both begin the same text |
| Dates.ParseDayYear | main.py:137 | a day read is in 1..31 and a year read has four digits |
| Dates.ParseDate | main.py:137 | a date that parses is a real calendar date in years 1..9999 |
| Dates.ParseRendered | main.py:137 | "Month D, YYYY" (day padded or not) parses to its date when the day exists, otherwise gives OutOfRange |
| Dates.ParsedIsRendered | main.py:137 | conversely, every text that parses to a date is one of the two renderings of that date (`Month D, YYYY` or `Month DD, YYYY`), so nothing else is accepted |
| Dates.Assemble | main.py:137 | a parsed day and year within a month give a date exactly when the day exists; a missing day and year is a mismatch |
| Dates.PartsAreRendered | main.py:137 | a text whose month prefix and day-and-year suffix parse to a date's fields is one of that date's renderings |
| Dates.FormatDate | main.py:137 | `%m_%d_%Y` is ten characters: two digits of month, `_`, two of day, `_`, four of year, each reading back as the date's value |
| Dates.Pad2OfValue | main.py:137 | zero-padding the value of two digits gives the same digits back |
| Dates.Pad4OfValue | main.py:137 | zero-padding the value of four digits gives the same digits back |
| Article.Lines | main.py:128 | the inverse that specifies the `"\n".join` (the script itself never splits): splitting at newlines, as Python's `split("\n")` does, yields at least one piece |
| Article.Join | main.py:128 | `"\n".join` of the paragraph texts; no contract of its own: LinesOfJoin states that splitting the joined text gives the paragraphs back |
| Article.LinesAppend | main.py:128 | splitting a text at one newline splits it into the lines on either side |
| Article.LinesOfLine | main.py:128 | a paragraph without newlines is a single line |
| Article.LinesOfJoin | main.py:128 | joining newline-free paragraphs with "\n", then splitting, gives the paragraphs back |
| Article.DocumentLines | main.py:135 | the document's lines are "Date: …", "", "Title: …", "", "Speaker: …", "", "Location: …", "", then the body's lines |
| Article.DocumentText | main.py:135 | the f-string of the document; no contract of its own: DocumentLines and GeneratedFile state its lines |
| Article.FileNameParts | main.py:138-143 | the file name is the sanitised title with spaces replaced, then `_`, the `MM_DD_YYYY` date and ".txt" |
| Article.FileName | main.py:138-143 | the file name from title and formatted date; no contract of its own: FileNameParts and FileNameShape state its parts, length and characters |
| Article.FileNameShape | main.py:138-143 | the file name has the title's length plus 15 and ends in ".txt"; each title position becomes `_` exactly where it was forbidden or a space; no space or forbidden character is left |
| Article.Generate | main.py:87-154 | a file is produced exactly when title, date, speaker, location and body are all present and the date parses |
| Article.MissingFieldReported | main.py:98-132 | once the title appeared, the error names the first missing field in reading order (date, speaker, location, content) |
| Article.CompletePage | main.py:126-150 | with every element present, a parsing date gives the file named after title and date holding the laid-out document; a failing date gives BadDate and no file |
| Article.GeneratedFile | main.py:135-150 | a produced file's name ends in ".txt" and holds no space or forbidden character; with newline-free fields, its lines are the header lines followed by the paragraphs |
| Examples.PlainTitleStem | main.py:138-143 | a title of letters and spaces keeps its letters and has its spaces turned into `_` |
| Examples.FileNameExample | main.py:137-143 | "Remarks on Economic Outlook" dated January 5, 2024 is saved as "Remarks_on_Economic_Outlook_01_05_2024.txt" |
| Examples.JanuaryFifthExample | main.py:137 | "January 5, 2024" parses to 2024-01-05 and is formatted "01_05_2024" |
| Examples.FebruaryThirtiethExample | main.py:137 | "February 30, 2024" is refused as OutOfRange |
| Examples.LeapDayExample | main.py:137 | "February 29, 2024" parses |
| Examples.NonLeapDayExample | main.py:137 | "February 29, 2023" is refused as OutOfRange |
| Examples.DayPastThirtyOneExample | main.py:137 | "January 32, 2024" is refused as a Mismatch |
| Speakers.CheckboxIndex | main.py:72 | the lookup succeeds exactly for the nine table keys, with a position in 1..10 other than 5; any other speaker is the KeyError case |
| Speakers.TableInjective | main.py:27-37 | no two speakers share a checkbox position |
| Speakers.KeysRoundTrip | main.py:27-37 | every key's position maps back to that key |
| Speakers.IndexRoundTrip | main.py:27-37 | every position in use maps to a key whose lookup gives that position |
| Speakers.LookupIsInverse | main.py:27-37 | lookup and reverse lookup agree in both directions |
| Speakers.TablePositions | main.py:27-37 | the positions in use are 1..10 without 5; the catch-all "former" and "other" sit at 9 and 10 |
| Links.Compile | main.py:175-177 | the compiled pattern has one element per character of the pattern text |
| Links.CompileAt | main.py:175-177 | each character compiles on its own: '.' is the any-character wildcard, everything else a literal |
| Links.Pattern | main.py:165-177 | the pattern built from the base URL and the name; no contract of its own: CompileAt, MatchesIffPrefix and WildcardDot state what it matches |
| Links.Matches | main.py:180 | `re.match` of the pattern followed by `.*$`; no contract of its own: MatchesIffPrefix, WildcardDot and CapitalisedNameMisses state when it holds |
| Links.MatchesIffPrefix | main.py:175-180 | for an href beginning with the base URL, a name without '.' and no newline, the href matches exactly when the rest begins with the name |
| Links.CapitalisedNameMisses | main.py:171-180 | the match is case-sensitive: a name starting with a capital never matches an href whose rest starts with a lower-case letter |
| Links.WildcardDot | main.py:165 | the unescaped '.' after "www" matches any character but a newline, so replacing it never changes the verdict |
| Links.TrimEnd | main.py:171 | the trimmed text is a prefix, only whitespace is cut, and it ends in a non-whitespace character |
| Links.TrailingWord | main.py:171 | the trailing word is a whitespace-free suffix preceded by whitespace or by nothing |
| Links.LastWord | main.py:171-172 | `split()[-1]` of the caption; no contract of its own: LastWordIsLastToken states that it is the last whitespace-separated token |
| Links.LastWordIsLastToken | main.py:171-172 | for a caption with a word, the name is its last whitespace-separated token: nonempty, whitespace-free, at the start or after whitespace, and followed only by whitespace |
| Links.TargetName | main.py:168-177 | an error exactly when there is no target, or a catch-all target lacks a caption or a word in it; ordinary targets are used as they are; for a catch-all target the name is `LastWord` of the caption (the last whitespace-separated token, by LastWordIsLastToken), nonempty and whitespace-free |
| Links.MatchingLinks | main.py:179-181 | never more links are kept than the page has |
| Links.MatchingLinksAppend | main.py:179-181 | filtering keeps page order: filtering a concatenation concatenates the filtered parts |
| Links.MatchingLinksCount | main.py:179-181 | each matching href is kept as many times as the page lists it; non-matching ones never |
| Links.PageLinks | main.py:164-181 | a page is an error exactly when there is no target, or the target is the catch-all and the page has no caption or only whitespace in it; otherwise it never yields more links than the page lists |
| Links.PageLinksCount | main.py:164-181 | each href is kept as often as the page lists it when the name's pattern matches it, and never otherwise |
| Web.Browser.Filter | main.py:157-161 | filtering succeeds exactly when the position exists as a checkbox; it then shows that listing from its first page |
| Web.Browser.ClickNext | main.py:219-220 | Next succeeds exactly when the page has the button, and then moves one page on |
| Web.Browser.Quit | main.py:190 | quitting is counted once per call |
| Web.DataDirectory.Write | main.py:149-150 | writing a file creates or overwrites exactly that name |
| Web.WriteAllLast | main.py:149-150 | after a series of writes, a name holds the content of its last write |
| Web.WriteAll | main.py:149-150 | the directory after writing the files in order; no contract of its own: WriteAllLast and WriteAllElsewhere state what each name holds |
| Web.WriteAllElsewhere | main.py:149-150 | a name that was never written keeps what the directory held before |
| Scraper.SeleniumOptions.constructor | main.py:23-68 | the options hold the launched browser (or none) and the speaker |
| Scraper.SeleniumOptions.GetDriver | main.py:71-72 | succeeds exactly for speakers in the table, returning the browser, the speaker and the checkbox position that maps back to the speaker |
| Scraper.CollectKeepsEarlierLinks | main.py:208-225 | the pagination loop never drops or reorders links collected earlier |
| Scraper.CollectFrom | main.py:208-225 | the pagination loop as a recursive function; no contract of its own: CollectKeepsEarlierLinks, CollectBounds, CollectReadsOnly and SixAnchorsScrapeThreePages state what it collects, and Paginate is proved equal to it |
| Scraper.CollectBounds | main.py:203-221 | the page counter only grows and never passes the page count; the page on screen advances with it, so at most `total_pages - 1` Next clicks happen |
| Scraper.CollectReadsOnly | main.py:203-221 | only listing pages 1 to `total_pages - 1` are read; the last numbered page is never scraped |
| Scraper.SixAnchorsScrapeThreePages | main.py:200-221 | six pagination links make four pages; when three pages succeed, exactly their links are collected in order, and the fourth page is skipped |
| Scraper.Attempts | main.py:231-232 | one outcome per link |
| Scraper.ExtractFrom | main.py:229-232 | the extraction loop as a recursive function; no contract of its own: ExtractionStopsAtFirstFailure and TwoLinksSecondFails state what it produces, and ExtractAll is proved equal to it |
| Scraper.AttemptsAt | main.py:231-232 | the outcome for each link is the result of processing that link's own page |
| Scraper.ExtractionStopsAtFirstFailure | main.py:229-236 | links are handled in order; every link before the stop produced its file; the loop stops at the first failing link or after all links |
| Scraper.TwoLinksSecondFails | main.py:229-236 | with two links whose second page fails, exactly one file (the first) is written, and the failure is at the second link |
| Scraper.TestGetPowellsLinks.constructor | main.py:77-80 | a new scraper has no links, no checkbox position, no target and no browser |
| Scraper.TestGetPowellsLinks.SetupMethod | main.py:184-186 | takes browser, position and target from the options; an unknown speaker raises before anything is assigned |
| Scraper.TestGetPowellsLinks.SelectTarget | main.py:157-161 | the listing is filtered by the checkbox at the scraper's position, or it fails when there is none |
| Scraper.TestGetPowellsLinks.ExtractSpeechesLinks | main.py:164-181 | appends exactly the page's matching hrefs, in page order with duplicates, after the earlier links; on an error appends nothing |
| Scraper.TestGetPowellsLinks.Paginate | main.py:208-225 | collects exactly what `CollectFrom` describes from counter 1, and returns the final counter |
| Scraper.TestGetPowellsLinks.PaginateStep | main.py:211-225 | one pass of the loop body: collect the page's links, then click Next; it either continues with what remains of `CollectFrom` one page and one counter further on, or stops where `CollectFrom` stops |
| Scraper.TestGetPowellsLinks.GenerateDocument | main.py:87-154 | the outcome is `Generate` of the link's page; on success exactly that file is written, on an error nothing is |
| Scraper.TestGetPowellsLinks.ExtractAll | main.py:229-232 | the directory receives exactly the files `ExtractFrom` lists, in order, and the first failure is reported |
| Scraper.TestGetPowellsLinks.TeardownMethod | main.py:189-190 | the browser is quit once |
| Scraper.TestGetPowellsLinks.Run | main.py:193-236 | a missing browser, checkbox or pagination list crashes the run before anything is collected or quit; otherwise `total_pages` is the anchor count less two, the links are what `CollectFrom` collects from counter 1 (so at most the first `total_pages - 1` listing pages are read, by CollectReadsOnly), the files are written until the first failure, and the browser is quit exactly once on both paths |
| Scraper.Script | main.py:239-243 | setting up for "powell" never fails: without a browser the run crashes, without checkbox 1 it crashes with nothing written, without a pagination list likewise; otherwise it collects the "powell" links from checkbox 1's listing starting from none, writes the files `ExtractFrom` lists and reports the first failure; the browser is quit once exactly when the run finishes |

## Left out

- The construction of the browser in `SeleniumOptions.__init__` (main.py:45-68) is not modelled. Its errors are swallowed by a bare `except`, so the constructor simply takes the launched browser, or none. The model also does not capture that `self.config` does not exist and that the default "Chrome" never matches "chrome".
- WebDriver I/O is abstract. The `Site` datatype stands in for `get`, `find_element(s)`, `WebDriverWait`, `click` and `quit`. Navigating to a speech page does not change the browser's listing state in the model.
- The one-second `time.sleep`, every `print`, and the ten-second wait are not modelled. A title that does not appear within the wait is the `TitleTimeout` error.
- Filesystem paths are not modelled: `os.getcwd`, `os.path.join`, `os.makedirs` and the UTF-8 encoding. The `data` directory is a map from file name to content. Writing can never fail.
- The model assumes the title read right after the wait sees the same element. This makes the "title data inexistent" error unreachable, so it has no `Field` case.
- Selenium errors while iterating the listing's anchors are not modelled: a stale element, or a `get_attribute("href")` that fails or returns None. A failure while reading the speech paragraphs' text is modelled: it is a page whose `body` is None, reported as the missing content. A page with no paragraphs is an empty body and still gets its file.
- Dates.ParseDate: models `strptime` in its canonical form only. Month names must match in exact case. Exactly one space is allowed where Python accepts any whitespace run. The day is `[1-9]` or two digits `01`–`31`, and Python's space-padded day form " 5" is not accepted. Digits must be ASCII.
- Dates.FormatDate: always pads the year to four digits. The C library behind `strftime` may print years below 1000 without padding.
- Links.Compile: reads every pattern character other than '.' literally. Regex metacharacters in a caption name (`+`, `(`, `[`, …) are not interpreted, and an invalid pattern's `re.error` is not modelled.
- Links.IsSpace: uses Python's whitespace set as listed in the code point ranges. The Unicode database itself is not modelled.
- The text of the CSS selector in `select_target` is not modelled. A missing position and a missing checkbox both fail the same way.
- Scraper.TestGetPowellsLinks.Paginate: requires a browser, like `ExtractSpeechesLinks`, `GenerateDocument`, `ExtractAll`, `SelectTarget` and `TeardownMethod`. Python would raise AttributeError on `None`, but `run` reaches these methods only after its own browser check.
- Scraper.TestGetPowellsLinks.Run: assumes `quit` succeeds. If `quit` raised inside the `try`, the `except` would call it a second time.
- `self.vars = {}` in `setup_method` is not modelled, because nothing reads it.

=== FILE: article.dfy ===
/**
 * The pure part of `generate_document` (main.py:87-154): reading the five
 * regions of a speech page, laying out the text document, and naming the
 * output file after the sanitised title and the reformatted date.
 */
module Article {
  import opened Wrappers
  import opened Sanitizer
  import opened Dates

  /**
   * What a speech page offers the scraper: the text of each labelled element
   * (None when the element is absent) and the texts of the body paragraphs,
   * in page order (an empty list when the page has none; None when reading
   * a paragraph's text raised, main.py:126-132).
   */
  datatype DetailPage = DetailPage(
    date: Option<string>,
    title: Option<string>,
    speaker: Option<string>,
    location: Option<string>,
    body: Option<seq<string>>)

  /** The fields whose absence raises a "<field> data inexistent" error. */
  datatype Field = DateField | SpeakerField | LocationField | ContentField

  datatype ExtractError =
    | TitleTimeout            // the title element did not appear within the wait
    | Missing(field: Field)   // a labelled element was absent
    | BadDate(reason: DateError)

  /** A file the run writes into the data directory. */
  datatype OutputFile = OutputFile(name: string, content: string)

  /** `"\n".join(ps)`. */
  function Join(ps: seq<string>): string
  {
    if |ps| == 0 then "" else if |ps| == 1 then ps[0] else Join(ps[..|ps| - 1]) + "\n" + ps[|ps| - 1]
  }

  /**
   * Python's `s.split("\n")`: the pieces between newlines, always at least
   * one. The script never splits; this is the inverse that specifies the
   * join of the body paragraphs.
   */
  function Lines(s: string): (r: seq<string>)
    ensures |r| >= 1
  {
    if s == [] then [""]
    else
      var init, c := Lines(s[..|s| - 1]), s[|s| - 1];
      if c == '\n' then init + [""] else init[..|init| - 1] + [init[|init| - 1] + [c]]
  }

  /** Splitting at one newline splits the text into the lines on either side of it. */
  lemma {:induction false} LinesAppend(a: string, b: string)
    ensures Lines(a + "\n" + b) == Lines(a) + Lines(b)
    decreases |b|
  {
    if b == [] {
      assert a + "\n" + b == a + ['\n'];
      LinesSnoc(a, '\n');
      assert Lines(b) == [""];
    } else {
      var b', c := b[..|b| - 1], b[|b| - 1];
      var x := a + "\n" + b';
      assert a + "\n" + b == x + [c];
      assert b' + [c] == b;
      LinesAppend(a, b');
      LinesSnoc(x, c);
      LinesSnoc(b', c);
      SnocOnLast(Lines(a), Lines(b'), c);
    }
  }

  /** Adding a character to the lines of `la + lb` acts on the part `lb` only. */
  lemma SnocOnLast(la: seq<string>, lb: seq<string>, c: char)
    requires |lb| >= 1
    ensures var ls := la + lb;
      (if c == '\n' then ls + [""] else ls[..|ls| - 1] + [ls[|ls| - 1] + [c]])
      == la + (if c == '\n' then lb + [""] else lb[..|lb| - 1] + [lb[|lb| - 1] + [c]])
  {
    var ls := la + lb;
    if c != '\n' {
      assert ls[..|ls| - 1] == la + lb[..|lb| - 1];
      assert ls[|ls| - 1] == lb[|lb| - 1];
    }
  }

  /** One more character either starts a new line or extends the last one. */
  lemma LinesSnoc(s: string, c: char)
    ensures var ls := Lines(s);
      Lines(s + [c]) == if c == '\n' then ls + [""] else ls[..|ls| - 1] + [ls[|ls| - 1] + [c]]
  {
    assert (s + [c])[..|s|] == s;
  }

  /** A text without newlines is one line. */
  lemma {:induction false} LinesOfLine(p: string)
    requires '\n' !in p
    ensures Lines(p) == [p]
    decreases |p|
  {
    if p != [] {
      assert p[|p| - 1] in p;
      assert forall c :: c in p[..|p| - 1] ==> c in p;
      LinesOfLine(p[..|p| - 1]);
      assert p[..|p| - 1] + [p[|p| - 1]] == p;
    }
  }

  /** Joining paragraphs that hold no newline and splitting the result gives the paragraphs back. */
  lemma {:induction false} LinesOfJoin(ps: seq<string>)
    requires |ps| >= 1
    requires forall i :: 0 <= i < |ps| ==> '\n' !in ps[i]
    ensures Lines(Join(ps)) == ps
    decreases |ps|
  {
    LinesOfLine(ps[|ps| - 1]);
    if |ps| > 1 {
      var init := ps[..|ps| - 1];
      LinesOfJoin(init);
      LinesAppend(Join(init), ps[|ps| - 1]);
      assert init + [ps[|ps| - 1]] == ps;
    }
  }

  /** The document text built at main.py:135. */
  function DocumentText(date: string, title: string, speaker: string, location: string, body: string): string
  {
    "Date: " + date + "\n\nTitle: " + title + "\n\nSpeaker: " + speaker + "\n\nLocation: " + location + "\n\n" + body
  }

  /** The header lines of a document: each label line is followed by an empty line. */
  function HeaderLines(date: string, title: string, speaker: string, location: string): seq<string>
  {
    ["Date: " + date, "", "Title: " + title, "", "Speaker: " + speaker, "", "Location: " + location, ""]
  }

  /**
   * The document's lines are the four labelled header lines, each followed by
   * an empty line, and then the lines of the body.
   */
  lemma DocumentLines(date: string, title: string, speaker: string, location: string, body: string)
    requires '\n' !in date && '\n' !in title && '\n' !in speaker && '\n' !in location
    ensures Lines(DocumentText(date, title, speaker, location, body))
      == HeaderLines(date, title, speaker, location) + Lines(body)
  {
    var h1, h2, h3, h4 := "Date: " + date, "Title: " + title, "Speaker: " + speaker, "Location: " + location;
    var x4 := h4 + "\n\n" + body;
    var x3 := h3 + "\n\n" + x4;
    var x2 := h2 + "\n\n" + x3;
    var x1 := h1 + "\n\n" + x2;
    DocumentNests(date, title, speaker, location, body);
    HeaderNests(date, title, speaker, location, Lines(body));
    LabelledLine(h4, body);
    LabelledLine(h3, x4);
    LabelledLine(h2, x3);
    LabelledLine(h1, x2);
  }

  lemma HeaderNests(date: string, title: string, speaker: string, location: string, rest: seq<string>)
    ensures HeaderLines(date, title, speaker, location) + rest
      == ["Date: " + date, ""] + (["Title: " + title, ""] + (["Speaker: " + speaker, ""]
         + (["Location: " + location, ""] + rest)))
  {
  }

  /** The document is each header line, an empty line, and the rest, nested four deep. */
  lemma DocumentNests(date: string, title: string, speaker: string, location: string, body: string)
    ensures DocumentText(date, title, speaker, location, body)
      == ("Date: " + date) + "\n\n" + (("Title: " + title) + "\n\n" + (("Speaker: " + speaker) + "\n\n"
         + (("Location: " + location) + "\n\n" + body)))
  {
  }

  /** A line without newlines, an empty line, and the rest. */
  lemma LabelledLine(h: string, rest: string)
    requires '\n' !in h
    ensures Lines(h + "\n\n" + rest) == [h, ""] + Lines(rest)
  {
    LinesOfLine(h);
    LinesOfLine("");
    LinesAppend("", rest);
    LinesAppend(h, "" + "\n" + rest);
    assert h + "\n\n" + rest == h + "\n" + ("" + "\n" + rest);
  }

  /** The file name built at main.py:138-143 from the title and the reformatted date. */
  function FileName(title: string, date: string): string
  {
    ReplaceSpaces(SanitizeFilename(title) + "_" + date) + ".txt"
  }

  /**
   * The space replacement at main.py:143 runs over the whole name, but the
   * reformatted date holds no space, so it only changes the title part.
   */
  lemma FileNameParts(title: string, d: Date)
    requires ValidDate(d)
    ensures FileName(title, FormatDate(d)) == ReplaceSpaces(SanitizeFilename(title)) + "_" + FormatDate(d) + ".txt"
  {
    var date := FormatDate(d);
    var clean := SanitizeFilename(title);
    ReplaceSpacesAppend(clean, "_" + date);
    assert clean + "_" + date == clean + ("_" + date);
    var tail := "_" + date;
    assert ReplaceSpaces(tail) == tail by {
      ReplaceSpacesAt(tail);
      forall i | 0 <= i < |tail| ensures ReplaceSpaces(tail)[i] == tail[i] {
        if i > 0 {
          assert tail[i] == date[i - 1];
        }
      }
    }
  }

  /**
   * The name of a speech's file: the title with forbidden characters and
   * spaces turned into '_', then '_', the MM_DD_YYYY date and ".txt"; it
   * therefore holds neither spaces nor forbidden characters.
   */
  lemma FileNameShape(title: string, d: Date)
    requires ValidDate(d)
    ensures var n := FileName(title, FormatDate(d));
      && |n| == |title| + 15
      && n[|n| - 4..] == ".txt"
      && (forall i :: 0 <= i < |title| ==>
            n[i] == if title[i] in Forbidden || title[i] == ' ' then '_' else title[i])
      && (forall i :: 0 <= i < |n| ==> n[i] != ' ' && n[i] !in Forbidden)
  {
    var date := FormatDate(d);
    var clean := SanitizeFilename(title);
    SanitizeFilenameAt(title);
    ReplaceSpacesAt(clean);
    FileNameParts(title, d);
    var tail := "_" + date;
    var n := FileName(title, date);
    assert n == ReplaceSpaces(clean) + tail + ".txt";
    forall i | 0 <= i < |n| ensures n[i] != ' ' && n[i] !in Forbidden {
      if i < |title| {
        assert n[i] == ReplaceSpaces(clean)[i];
      } else if i < |title| + 11 {
        assert n[i] == tail[i - |title|];
        if i > |title| {
          assert tail[i - |title|] == date[i - |title| - 1];
        }
      } else {
        assert n[i] == ".txt"[i - |title| - 11];
      }
    }
  }

  /**
   * `generate_document` on a loaded page (main.py:93-143): wait for the
   * title, read date, title, speaker, location and body in that order, lay
   * out the document, parse the date; the result is the file to write or the
   * error raised, which leaves nothing written.
   */
  function Generate(page: DetailPage): (r: Result<OutputFile, ExtractError>)
    ensures r.Ok? <==>
      && page.title.Some? && page.date.Some? && page.speaker.Some? && page.location.Some? && page.body.Some?
      && ParseDate(page.date.value).Ok?
  {
    if page.title.None? then Err(TitleTimeout)
    else if page.date.None? then Err(Missing(DateField))
    else if page.speaker.None? then Err(Missing(SpeakerField))
    else if page.location.None? then Err(Missing(LocationField))
    else if page.body.None? then Err(Missing(ContentField))
    else
      var text := DocumentText(page.date.value, page.title.value, page.speaker.value,
                               page.location.value, Join(page.body.value));
      match ParseDate(page.date.value)
      case Err(e) => Err(BadDate(e))
      case Ok(d) => Ok(OutputFile(FileName(page.title.value, FormatDate(d)), text))
  }

  /** Whether the page has the element a field is read from. */
  predicate Present(page: DetailPage, f: Field)
  {
    match f
    case DateField => page.date.Some?
    case SpeakerField => page.speaker.Some?
    case LocationField => page.location.Some?
    case ContentField => page.body.Some?
  }

  /** The order in which main.py:98-132 reads the fields. */
  function Rank(f: Field): nat
  {
    match f
    case DateField => 0
    case SpeakerField => 1
    case LocationField => 2
    case ContentField => 3
  }

  /**
   * Once the title has appeared, the error raised names the first field, in
   * reading order, whose element is missing.
   */
  lemma MissingFieldReported(page: DetailPage, f: Field)
    requires page.title.Some? && !Present(page, f)
    requires forall g: Field :: Rank(g) < Rank(f) ==> Present(page, g)
    ensures Generate(page) == Err(Missing(f))
  {
    if f != DateField {
      assert Rank(DateField) < Rank(f);
    }
    if f == LocationField || f == ContentField {
      assert Rank(SpeakerField) < Rank(f);
    }
    if f == ContentField {
      assert Rank(LocationField) < Rank(f);
    }
  }

  /**
   * When every element is present the outcome depends on the date alone: a
   * date that parses gives the file named after title and date holding the
   * document, a date that does not gives BadDate and no file.
   */
  lemma CompletePage(page: DetailPage)
    requires page.title.Some? && page.date.Some? && page.speaker.Some? && page.location.Some? && page.body.Some?
    ensures var date := page.date.value;
      match ParseDate(date)
      case Ok(d) =>
        Generate(page) == Ok(OutputFile(FileName(page.title.value, FormatDate(d)),
          DocumentText(date, page.title.value, page.speaker.value, page.location.value, Join(page.body.value))))
      case Err(e) => Generate(page) == Err(BadDate(e))
  {
  }

  /**
   * A written file is named as FileNameShape describes, and when no field
   * holds a newline its lines are the header lines and the paragraphs.
   */
  lemma GeneratedFile(page: DetailPage)
    requires Generate(page).Ok?
    ensures var f := Generate(page).value;
      && |f.name| >= 4 && f.name[|f.name| - 4..] == ".txt"
      && (forall i :: 0 <= i < |f.name| ==> f.name[i] != ' ' && f.name[i] !in Forbidden)
    ensures var f := Generate(page).value;
      && '\n' !in page.date.value && '\n' !in page.title.value
      && '\n' !in page.speaker.value && '\n' !in page.location.value
      && |page.body.value| >= 1 && (forall i :: 0 <= i < |page.body.value| ==> '\n' !in page.body.value[i])
      ==> Lines(f.content) == HeaderLines(page.date.value, page.title.value, page.speaker.value, page.location.value)
                              + page.body.value
  {
    var d := ParseDate(page.date.value).value;
    FileNameShape(page.title.value, d);
    var ps := page.body.value;
    if && '\n' !in page.date.value && '\n' !in page.title.value
       && '\n' !in page.speaker.value && '\n' !in page.location.value
       && |ps| >= 1 && (forall i :: 0 <= i < |ps| ==> '\n' !in ps[i])
    {
      DocumentLines(page.date.value, page.title.value, page.speaker.value, page.location.value, Join(ps));
      LinesOfJoin(ps);
    }
  }
}

=== FILE: dates.dfy ===
/**
 * The date handling of `generate_document` (main.py:137): the page's date
 * text is read with the pattern "%B %d, %Y" ("January 5, 2024") and written
 * back as "%m_%d_%Y" ("01_05_2024") for the output file name.
 */
module Dates {
  import opened Wrappers
  import opened Seqs

  const MonthNames: seq<string> := ["January", "February", "March", "April", "May", "June",
    "July", "August", "September", "October", "November", "December"]

  datatype Date = Date(year: int, month: int, day: int)

  /** Why a date text is refused: it does not have the expected shape, or names no real day. */
  datatype DateError = Mismatch | OutOfRange

  predicate IsLeapYear(y: int) {
    y % 4 == 0 && (y % 100 != 0 || y % 400 == 0)
  }

  function DaysInMonth(year: int, month: int): (n: int)
    requires 1 <= month <= 12
    ensures 28 <= n <= 31
    ensures n == 29 <==> month == 2 && IsLeapYear(year)
    ensures n == 28 <==> month == 2 && !IsLeapYear(year)
    ensures n == 30 <==> month == 4 || month == 6 || month == 9 || month == 11
  {
    if month == 2 then (if IsLeapYear(year) then 29 else 28)
    else if month == 4 || month == 6 || month == 9 || month == 11 then 30
    else 31
  }

  /** The calendar dates a Python `datetime` can hold: years 1 to 9999, an existing day. */
  predicate ValidDate(d: Date) {
    1 <= d.year <= 9999 && 1 <= d.month <= 12 && 1 <= d.day <= DaysInMonth(d.year, d.month)
  }

  predicate IsDigit(c: char) {
    '0' <= c <= '9'
  }

  predicate AllDigits(s: string) {
    forall i :: 0 <= i < |s| ==> IsDigit(s[i])
  }

  function DigitValue(c: char): (v: int)
    requires IsDigit(c)
    ensures 0 <= v <= 9
  {
    c as int - '0' as int
  }

  function Digit(n: int): (c: char)
    requires 0 <= n <= 9
    ensures IsDigit(c) && DigitValue(c) == n
  {
    ('0' as int + n) as char
  }

  function Pow10(n: nat): (p: nat)
    ensures p >= 1
  {
    if n == 0 then 1 else 10 * Pow10(n - 1)
  }

  /** The number a string of decimal digits denotes. */
  function Value(s: string): (v: int)
    requires AllDigits(s)
    ensures 0 <= v < Pow10(|s|)
  {
    if s == [] then 0 else Value(s[..|s| - 1]) * 10 + DigitValue(s[|s| - 1])
  }

  /** `n` in two digits, with a leading zero below 10 (the `%m` and `%d` of strftime). */
  function Pad2(n: int): (s: string)
    requires 0 <= n <= 99
    ensures |s| == 2 && AllDigits(s) && Value(s) == n
  {
    var s := [Digit(n / 10), Digit(n % 10)];
    assert s[..1] == [s[0]];
    s
  }

  /** `n` in four digits, zero-padded (the `%Y` of strftime). */
  function Pad4(n: int): (s: string)
    requires 0 <= n <= 9999
    ensures |s| == 4 && AllDigits(s) && Value(s) == n
  {
    var hi, lo := Pad2(n / 100), Pad2(n % 100);
    var s := hi + lo;
    assert s[..3] == hi + [lo[0]] && s[..2] == hi;
    s
  }

  /** A string of digits is the padded rendering of the number it denotes. */
  lemma Pad2OfValue(s: string)
    requires |s| == 2 && AllDigits(s)
    ensures Pad2(Value(s)) == s
  {
    assert s[..1] == [s[0]];
  }

  lemma Pad4OfValue(s: string)
    requires |s| == 4 && AllDigits(s)
    ensures Pad4(Value(s)) == s
  {
    var hi, lo := s[..2], s[2..];
    ValueOfFour(s);
    DivMod100(Value(hi), Value(lo));
    Pad2OfValue(hi);
    Pad2OfValue(lo);
    assert s == hi + lo;
  }

  lemma ValueOfFour(s: string)
    requires |s| == 4 && AllDigits(s)
    ensures Value(s) == Value(s[..2]) * 100 + Value(s[2..])
  {
    assert s[..3][..2] == s[..2];
    assert s[2..][..1] == [s[2]] && [s[2]][..0] == [];
    assert Value(s) == Value(s[..3]) * 10 + DigitValue(s[3]);
    assert Value(s[..3]) == Value(s[..2]) * 10 + DigitValue(s[2]);
    assert Value(s[2..]) == DigitValue(s[2]) * 10 + DigitValue(s[3]);
  }

  lemma DivMod100(hi: int, lo: int)
    requires 0 <= lo < 100
    ensures (hi * 100 + lo) / 100 == hi && (hi * 100 + lo) % 100 == lo
  {
  }

  /**
   * Finds the month whose full English name, followed by a space, begins `s`,
   * trying month `from` onwards.
   */
  function ParseMonth(s: string, from: int): (r: Option<int>)
    requires 1 <= from <= 13
    decreases 13 - from
    ensures r.Some? ==> from <= r.value <= 12 && MonthNames[r.value - 1] + " " <= s
  {
    if from == 13 then None
    else if MonthNames[from - 1] + " " <= s then Some(from)
    else ParseMonth(s, from + 1)
  }

  /** The text after the month: a day of one digit (1-9) or two (01-31), ", " and four digits. */
  function ParseDayYear(t: string): (r: Option<(int, int)>)
    ensures r.Some? ==> 1 <= r.value.0 <= 31 && 0 <= r.value.1 <= 9999
  {
    if |t| == 7 && '1' <= t[0] <= '9' && t[1..3] == ", " && AllDigits(t[3..]) then
      Some((DigitValue(t[0]), Value(t[3..])))
    else if |t| == 8 && AllDigits(t[..2]) && 1 <= Value(t[..2]) <= 31 && t[2..4] == ", " && AllDigits(t[4..]) then
      Some((Value(t[..2]), Value(t[4..])))
    else None
  }

  /**
   * `datetime.strptime(s, "%B %d, %Y")` in its canonical English form: a
   * shape mismatch (wrong month name, a day outside 1-31, a year that is not
   * four digits, anything left over) is Mismatch; a well-shaped text naming
   * no real day (February 30, year 0000) is OutOfRange.
   */
  function ParseDate(s: string): (r: Result<Date, DateError>)
    ensures r.Ok? ==> ValidDate(r.value)
  {
    match ParseMonth(s, 1)
    case None => Err(Mismatch)
    case Some(m) =>
      Assemble(m, ParseDayYear(s[|MonthNames[m - 1]| + 1..]))
  }

  /** The date a month and a parsed day and year denote, if the day exists. */
  function Assemble(m: int, dayYear: Option<(int, int)>): (r: Result<Date, DateError>)
    requires 1 <= m <= 12
    requires dayYear.Some? ==> 1 <= dayYear.value.0 <= 31 && 0 <= dayYear.value.1 <= 9999
    ensures r.Ok? ==> ValidDate(r.value) && r.value.month == m && dayYear == Some((r.value.day, r.value.year))
    ensures r == Err(Mismatch) <==> dayYear.None?
  {
    match dayYear
    case None => Err(Mismatch)
    case Some((day, year)) =>
      if 1 <= year && day <= DaysInMonth(year, m) then Ok(Date(year, m, day)) else Err(OutOfRange)
  }

  /** `date.strftime("%m_%d_%Y")` (main.py:137). */
  function FormatDate(d: Date): (s: string)
    requires ValidDate(d)
    ensures |s| == 10 && s[2] == '_' && s[5] == '_'
    ensures AllDigits(s[..2]) && AllDigits(s[3..5]) && AllDigits(s[6..])
    ensures Value(s[..2]) == d.month && Value(s[3..5]) == d.day && Value(s[6..]) == d.year
    ensures forall i :: 0 <= i < |s| ==> IsDigit(s[i]) || s[i] == '_'
  {
    var s := Pad2(d.month) + "_" + Pad2(d.day) + "_" + Pad4(d.year);
    assert s[..2] == Pad2(d.month) && s[3..5] == Pad2(d.day) && s[6..] == Pad4(d.year);
    assert forall i :: 0 <= i < 2 ==> s[i] == s[..2][i];
    assert forall i :: 3 <= i < 5 ==> s[i] == s[3..5][i - 3];
    assert forall i :: 6 <= i < 10 ==> s[i] == s[6..][i - 6];
    s
  }

  /** The day as the site writes it: "5", or zero-padded "05" when `padded`. */
  function DayText(day: int, padded: bool): string
    requires 1 <= day <= 31
  {
    if day < 10 && !padded then [Digit(day)] else Pad2(day)
  }

  /** A date written in the "Month D, YYYY" shape the speech pages use. */
  function RenderDate(year: int, month: int, day: int, padded: bool): string
    requires 0 <= year <= 9999 && 1 <= month <= 12 && 1 <= day <= 31
  {
    MonthNames[month - 1] + " " + DayText(day, padded) + ", " + Pad4(year)
  }

  lemma MonthNameHasNoSpace(k: int)
    requires 0 <= k < 12
    ensures ' ' !in MonthNames[k]
  {
  }

  lemma MonthNamesDistinct(j: int, k: int)
    requires 0 <= j < 12 && 0 <= k < 12 && j != k
    ensures MonthNames[j] != MonthNames[k]
  {
  }

  /** No month name followed by a space begins a text that another month's name begins. */
  lemma MonthNamesPrefixFree(j: int, k: int, s: string)
    requires 0 <= j < 12 && 0 <= k < 12 && j != k
    requires MonthNames[j] + " " <= s
    ensures !(MonthNames[k] + " " <= s)
  {
    var a, b := MonthNames[j], MonthNames[k];
    MonthNameHasNoSpace(j);
    MonthNameHasNoSpace(k);
    MonthNamesDistinct(j, k);
    assert s[|a|] == ' ';
    if |a| < |b| {
      assert b[|a|] in b;
    } else if |b| < |a| {
      assert s[|b|] == a[|b|] && a[|b|] in a;
    } else {
      assert a == s[..|a|];
    }
  }

  /** When no month is found, no month name from `from` on starts the text. */
  lemma {:induction false} ParseMonthMisses(s: string, from: int)
    requires 1 <= from <= 13 && ParseMonth(s, from).None?
    ensures forall k :: from - 1 <= k < 12 ==> !(MonthNames[k] + " " <= s)
    decreases 13 - from
  {
    if from < 13 {
      ParseMonthMisses(s, from + 1);
    }
  }

  /** A text that begins with a month's name and a space is read as that month. */
  lemma {:induction false} ParseMonthFinds(s: string, from: int, m: int)
    requires 1 <= from <= m <= 12 && MonthNames[m - 1] + " " <= s
    ensures ParseMonth(s, from) == Some(m)
    decreases m - from
  {
    if from < m {
      MonthNamesPrefixFree(m - 1, from - 1, s);
      ParseMonthFinds(s, from + 1, m);
    }
  }

  /**
   * Every well-shaped text parses: to its date when that day exists, and to
   * OutOfRange when it does not.
   */
  lemma ParseRendered(year: int, month: int, day: int, padded: bool)
    requires 0 <= year <= 9999 && 1 <= month <= 12 && 1 <= day <= 31
    ensures ParseDate(RenderDate(year, month, day, padded)) ==
      if ValidDate(Date(year, month, day)) then Ok(Date(year, month, day)) else Err(OutOfRange)
  {
    var name := MonthNames[month - 1];
    var t := DayText(day, padded) + ", " + Pad4(year);
    ConcatAssoc(name + " ", DayText(day, padded) + ", ", Pad4(year));
    ConcatAssoc(name + " ", DayText(day, padded), ", ");
    ParseDateOf(RenderDate(year, month, day, padded), month, t);
    DayYearOfRendered(day, year, padded);
  }

  /** A text that starts with a month's name and a space is parsed by reading the rest as day and year. */
  lemma ParseDateOf(s: string, m: int, t: string)
    requires 1 <= m <= 12 && s == MonthNames[m - 1] + " " + t
    ensures ParseDate(s) ==
      match ParseDayYear(t)
      case None => Err(Mismatch)
      case Some((day, year)) =>
        if 1 <= year && day <= DaysInMonth(year, m) then Ok(Date(year, m, day)) else Err(OutOfRange)
  {
    ParseMonthFinds(s, 1, m);
    assert s[|MonthNames[m - 1]| + 1..] == t;
  }

  /** The day and year as the site writes them read back as that day and year. */
  lemma DayYearOfRendered(day: int, year: int, padded: bool)
    requires 0 <= year <= 9999 && 1 <= day <= 31
    ensures ParseDayYear(DayText(day, padded) + ", " + Pad4(year)) == Some((day, year))
  {
    var t := DayText(day, padded) + ", " + Pad4(year);
    if day < 10 && !padded {
      assert t[1..3] == ", " && t[3..] == Pad4(year);
    } else {
      assert t[..2] == Pad2(day) && t[2..4] == ", " && t[4..] == Pad4(year);
    }
  }

  /** The text is one of the two renderings of the date: "Month D, YYYY" or "Month DD, YYYY". */
  predicate IsRendering(s: string, d: Date)
    requires ValidDate(d)
  {
    s == RenderDate(d.year, d.month, d.day, false) || s == RenderDate(d.year, d.month, d.day, true)
  }

  /** A date text that parses is one of the two renderings of the date it denotes. */
  lemma ParsedIsRendered(s: string, d: Date)
    requires ParseDate(s) == Ok(d)
    ensures IsRendering(s, d)
  {
    ParsedParts(s, d);
    PartsAreRendered(s, d);
  }

  /** The month's name and a space, then the day and year read back, make up a rendering of the date. */
  lemma PartsAreRendered(s: string, d: Date)
    requires ValidDate(d) && ParseMonth(s, 1) == Some(d.month)
    requires ParseDayYear(s[|MonthNames[d.month - 1]| + 1..]) == Some((d.day, d.year))
    ensures IsRendering(s, d)
  {
    var name := MonthNames[d.month - 1];
    var t := s[|name| + 1..];
    PrefixSplit(s, name + " ");
    DayYearIsRendered(t);
    RenderedFrom(s, d, t);
  }

  lemma PrefixSplit(s: string, p: string)
    requires p <= s
    ensures s == p + s[|p|..]
  {
  }

  lemma RenderedFrom(s: string, d: Date, t: string)
    requires ValidDate(d) && s == MonthNames[d.month - 1] + " " + t
    requires t == DayText(d.day, false) + ", " + Pad4(d.year) || t == DayText(d.day, true) + ", " + Pad4(d.year)
    ensures IsRendering(s, d)
  {
    if t == DayText(d.day, false) + ", " + Pad4(d.year) {
      RenderedOf(s, d.month, t, d.day, d.year, false);
    } else {
      RenderedOf(s, d.month, t, d.day, d.year, true);
    }
  }

  lemma RenderedOf(s: string, m: int, t: string, day: int, year: int, padded: bool)
    requires 1 <= m <= 12 && 1 <= day <= 31 && 0 <= year <= 9999
    requires s == MonthNames[m - 1] + " " + t && t == DayText(day, padded) + ", " + Pad4(year)
    ensures s == RenderDate(year, m, day, padded)
  {
    ConcatAssoc(MonthNames[m - 1] + " ", DayText(day, padded) + ", ", Pad4(year));
    ConcatAssoc(MonthNames[m - 1] + " ", DayText(day, padded), ", ");
  }

  /** The text after the month, once read, is the day and year written back. */
  lemma DayYearIsRendered(t: string)
    requires ParseDayYear(t).Some?
    ensures var (day, year) := ParseDayYear(t).value;
      t == DayText(day, false) + ", " + Pad4(year) || t == DayText(day, true) + ", " + Pad4(year)
  {
    if |t| == 7 && '1' <= t[0] <= '9' && t[1..3] == ", " && AllDigits(t[3..]) {
      ShortDayIsRendered(t);
    } else {
      LongDayIsRendered(t);
    }
  }

  /** What a successful parse has read: the month's name and a space, then day and year. */
  lemma ParsedParts(s: string, d: Date)
    requires ParseDate(s) == Ok(d)
    ensures ParseMonth(s, 1) == Some(d.month)
    ensures ParseDayYear(s[|MonthNames[d.month - 1]| + 1..]) == Some((d.day, d.year))
  {
  }

  lemma ShortDayIsRendered(t: string)
    requires |t| == 7 && '1' <= t[0] <= '9' && t[1..3] == ", " && AllDigits(t[3..])
    ensures t == [t[0]] + ", " + Pad4(Value(t[3..]))
  {
    Pad4OfValue(t[3..]);
  }

  lemma LongDayIsRendered(t: string)
    requires |t| == 8 && AllDigits(t[..2]) && t[2..4] == ", " && AllDigits(t[4..])
    ensures t == Pad2(Value(t[..2])) + ", " + Pad4(Value(t[4..]))
  {
    Pad2OfValue(t[..2]);
    Pad4OfValue(t[4..]);
    assert t == t[..2] + t[2..4] + t[4..];
  }
}

=== FILE: examples.dfy ===
/** Worked examples of the scraper's naming rules, on the site's own kind of data. */
module Examples {
  import opened Sanitizer
  import opened Dates
  import opened Article
  import opened Wrappers

  const ExampleTitle := "Remarks on Economic Outlook"
  const ExampleStem := "Remarks_on_Economic_Outlook"

  /** Letters and spaces: none of them is a forbidden character. */
  predicate Plain(c: char)
  {
    'A' <= c <= 'Z' || 'a' <= c <= 'z' || c == ' '
  }

  lemma PlainIsAllowed()
    ensures forall c :: Plain(c) ==> c !in Forbidden
  {
  }

  /** The example title, character by character, against its stem. */
  lemma ExampleLetters()
    ensures |ExampleTitle| == |ExampleStem| == 27
    ensures forall i :: 0 <= i < 27 ==>
      Plain(ExampleTitle[i]) && ExampleStem[i] == if ExampleTitle[i] == ' ' then '_' else ExampleTitle[i]
  {
  }

  /**
   * A title made only of letters and spaces keeps its letters and has its
   * spaces turned into '_': sanitising changes nothing, replacing spaces does.
   */
  lemma PlainTitleStem(t: string, u: string)
    requires |t| == |u|
    requires forall i :: 0 <= i < |t| ==> Plain(t[i]) && u[i] == if t[i] == ' ' then '_' else t[i]
    ensures ReplaceSpaces(SanitizeFilename(t)) == u
  {
    var clean := SanitizeFilename(t);
    SanitizeFilenameAt(t);
    ReplaceSpacesAt(clean);
    PlainIsAllowed();
    forall i | 0 <= i < |t| ensures ReplaceSpaces(clean)[i] == u[i] {
      assert t[i] !in Forbidden;
    }
  }

  /** Sanitising and replacing spaces turns the example title into its stem. */
  lemma ExampleTitleStem()
    ensures ReplaceSpaces(SanitizeFilename(ExampleTitle)) == ExampleStem
  {
    ExampleLetters();
    PlainTitleStem(ExampleTitle, ExampleStem);
  }

  /** Whatever the date, the example title contributes its stem to the file name. */
  lemma ExampleFileName(d: Date)
    requires ValidDate(d)
    ensures FileName(ExampleTitle, FormatDate(d)) == ExampleStem + "_" + FormatDate(d) + ".txt"
  {
    FileNameParts(ExampleTitle, d);
    ExampleTitleStem();
  }

  lemma ExampleSpelledOut(date: string)
    requires date == "01_05_2024"
    ensures ExampleStem + "_" + date + ".txt" == "Remarks_on_Economic_Outlook_01_05_2024.txt"
  {
  }

  /** A worked example: a title with spaces and the date January 5, 2024. */
  lemma FileNameExample()
    ensures FileName(ExampleTitle, FormatDate(Date(2024, 1, 5)))
      == "Remarks_on_Economic_Outlook_01_05_2024.txt"
  {
    JanuaryFifthExample();
    ExampleFileName(Date(2024, 1, 5));
    ExampleSpelledOut(FormatDate(Date(2024, 1, 5)));
  }

  /**
   * Each example text is the canonical rendering of its date. The literal is a
   * parameter so that callers see only the equation, not the string's characters,
   * which keeps their proofs small.
   */
  lemma JanuaryFifthText(s: string)
    requires s == "January 5, 2024"
    ensures s == RenderDate(2024, 1, 5, false)
  {
    assert Pad4(2024) == "2024";
  }

  lemma FebruaryThirtiethText(s: string)
    requires s == "February 30, 2024"
    ensures s == RenderDate(2024, 2, 30, false)
  {
    assert Pad4(2024) == "2024";
  }

  lemma LeapDayText(s: string)
    requires s == "February 29, 2024"
    ensures s == RenderDate(2024, 2, 29, false)
  {
    assert Pad4(2024) == "2024";
  }

  lemma NonLeapDayText(s: string)
    requires s == "February 29, 2023"
    ensures s == RenderDate(2023, 2, 29, false)
  {
    assert Pad4(2023) == "2023";
  }

  /** The worked example: "January 5, 2024" becomes "01_05_2024". */
  lemma JanuaryFifthExample()
    ensures ParseDate("January 5, 2024") == Ok(Date(2024, 1, 5))
    ensures FormatDate(Date(2024, 1, 5)) == "01_05_2024"
  {
    JanuaryFifthText("January 5, 2024");
    ParseRendered(2024, 1, 5, false);
  }

  /** A day that does not exist is refused even though the text is well shaped. */
  lemma FebruaryThirtiethExample()
    ensures ParseDate("February 30, 2024") == Err(OutOfRange)
  {
    FebruaryThirtiethText("February 30, 2024");
    ParseRendered(2024, 2, 30, false);
  }

  /** February 29 exists in leap years only. */
  lemma LeapDayExample()
    ensures ParseDate("February 29, 2024") == Ok(Date(2024, 2, 29))
  {
    LeapDayText("February 29, 2024");
    ParseRendered(2024, 2, 29, false);
  }

  lemma NonLeapDayExample()
    ensures ParseDate("February 29, 2023") == Err(OutOfRange)
  {
    NonLeapDayText("February 29, 2023");
    ParseRendered(2023, 2, 29, false);
  }

  /** A day past 31 does not fit the day field at all: the text is refused as misshapen. */
  lemma DayPastThirtyOneExample()
    ensures ParseDate("January 32, 2024") == Err(Mismatch)
  {
    var s := "January 32, 2024";
    ParseMonthFinds(s, 1, 1);
    var t := s[8..];
    assert t == "32, 2024";
    assert t[..2] == "32" && Value(t[..2]) == 32 by {
      assert t[..2][..1] == "3";
    }
  }
}

=== FILE: links.dfy ===
/**
 * The link collector of the listing pages: the target's name, the regular
 * expression built from it and the filter that keeps the matching hrefs.
 */
module Links {
  import opened Wrappers
  import Speakers

  /** What a listing page offers: its hrefs in page order, its first speaker caption, a Next button. */
  datatype ListingPage = ListingPage(hrefs: seq<string>, caption: Option<string>, hasNext: bool)

  /** Why `extract_speeches_links` raises before appending anything. */
  datatype CollectError =
    | NoTarget    // no target configured: `base_string + None` is a TypeError
    | NoCaption   // the speaker caption is absent from the page
    | NoName      // the caption holds no word: `name_parts[-1]` is an IndexError

  /** The literal part of the pattern (main.py:165), without the leading anchor. */
  const BaseUrl: string := "https://www.federalreserve.gov/newsevents/speech/"

  /** One position of the compiled pattern: a literal character, or '.' which matches any character but a newline. */
  datatype PatElem = Lit(c: char) | AnyChar

  function Compile(s: string): (p: seq<PatElem>)
    ensures |p| == |s|
  {
    if s == [] then [] else Compile(s[..|s| - 1]) + [if s[|s| - 1] == '.' then AnyChar else Lit(s[|s| - 1])]
  }

  /** Each character compiles on its own: '.' to the any-character wildcard, everything else to itself. */
  lemma {:induction false} CompileAt(s: string)
    ensures forall i :: 0 <= i < |s| ==> Compile(s)[i] == if s[i] == '.' then AnyChar else Lit(s[i])
  {
    if s != [] {
      CompileAt(s[..|s| - 1]);
    }
  }

  /** The pattern `^` + BaseUrl + name + `.*$` of main.py:175-177, up to its final `.*$`. */
  function Pattern(name: string): seq<PatElem>
  {
    Compile(BaseUrl + name)
  }

  predicate ElemMatches(e: PatElem, c: char)
  {
    match e
    case Lit(l) => c == l
    case AnyChar => c != '\n'
  }

  /** What `.*$` accepts: characters other than a newline, then at most one final newline. */
  predicate TailOk(t: string)
  {
    forall i :: 0 <= i < |t| - 1 ==> t[i] != '\n'
  }

  /** `re.match(pattern + ".*$", href)`: the pattern matches the start of href and `.*$` the rest. */
  predicate Matches(p: seq<PatElem>, href: string)
  {
    && |p| <= |href|
    && (forall i :: 0 <= i < |p| ==> ElemMatches(p[i], href[i]))
    && TailOk(href[|p|..])
  }

  /**
   * For an href that starts with the base URL, a name without '.' and no
   * newline in the rest, the pattern matches exactly when the rest of the
   * href starts with the name.
   */
  lemma MatchesIffPrefix(name: string, rest: string)
    requires '.' !in name && '\n' !in rest
    ensures Matches(Pattern(name), BaseUrl + rest) <==> name <= rest
  {
    var s := BaseUrl + name;
    var href := BaseUrl + rest;
    var p := Pattern(name);
    CompileAt(s);
    if name <= rest {
      forall i | 0 <= i < |p| ensures ElemMatches(p[i], href[i]) {
        if i < |BaseUrl| {
          assert href[i] == s[i];
        } else {
          assert href[i] == rest[i - |BaseUrl|] == name[i - |BaseUrl|] == s[i];
          assert name[i - |BaseUrl|] in name;
        }
      }
      forall i | 0 <= i < |href| - |p| - 1 ensures href[|p|..][i] != '\n' {
        assert href[|p|..][i] == rest[|name| + i] && rest[|name| + i] in rest;
      }
    }
    if Matches(p, href) {
      forall i | 0 <= i < |name| ensures rest[i] == name[i] {
        assert href[|BaseUrl| + i] == rest[i];
        assert s[|BaseUrl| + i] == name[i] && name[i] in name;
      }
    }
  }

  /**
   * The match is case-sensitive: a name that starts with a capital letter,
   * as a caption's last word usually does, never matches an href whose
   * rest starts with a lower-case letter.
   */
  lemma CapitalisedNameMisses(name: string, rest: string)
    requires '.' !in name && '\n' !in rest
    requires 0 < |name| && 'A' <= name[0] <= 'Z' && 0 < |rest| && 'a' <= rest[0] <= 'z'
    ensures !Matches(Pattern(name), BaseUrl + rest)
  {
    MatchesIffPrefix(name, rest);
  }

  /**
   * The unescaped '.' after "www" in the base URL is a wildcard: putting any
   * other character there (a newline aside) does not change whether an href
   * matches.
   */
  lemma WildcardDot(name: string, href: string, c: char)
    requires 11 < |href| && c != '\n' && href[11] != '\n'
    ensures Matches(Pattern(name), href[11 := c]) == Matches(Pattern(name), href)
  {
    var p := Pattern(name);
    CompileAt(BaseUrl + name);
    assert BaseUrl[11] == '.';
    assert (BaseUrl + name)[11] == '.';
    var h := href[11 := c];
    if |p| <= |href| {
      assert h[|p|..] == href[|p|..];
      assert (forall i :: 0 <= i < |p| ==> ElemMatches(p[i], h[i])) <==>
             (forall i :: 0 <= i < |p| ==> ElemMatches(p[i], href[i])) by {
        assert p[11] == AnyChar;
      }
    }
  }

  /** The characters Python's `str.split()` treats as whitespace. */
  predicate IsSpace(c: char)
  {
    var n := c as int;
    || 9 <= n <= 13 || 28 <= n <= 32 || n == 0x85 || n == 0xA0 || n == 0x1680
    || 0x2000 <= n <= 0x200A || n == 0x2028 || n == 0x2029 || n == 0x202F || n == 0x205F || n == 0x3000
  }

  predicate AllSpace(s: string)
  {
    forall i :: 0 <= i < |s| ==> IsSpace(s[i])
  }

  /** The text without its trailing whitespace. */
  function TrimEnd(s: string): (r: string)
    ensures r <= s
    ensures forall i :: |r| <= i < |s| ==> IsSpace(s[i])
    ensures |r| > 0 ==> !IsSpace(r[|r| - 1])
  {
    if |s| > 0 && IsSpace(s[|s| - 1]) then TrimEnd(s[..|s| - 1]) else s
  }

  /** The longest suffix without whitespace. */
  function TrailingWord(s: string): (r: string)
    ensures |r| <= |s| && r == s[|s| - |r|..]
    ensures forall i :: 0 <= i < |r| ==> !IsSpace(r[i])
    ensures |r| < |s| ==> IsSpace(s[|s| - |r| - 1])
  {
    if |s| > 0 && !IsSpace(s[|s| - 1]) then TrailingWord(s[..|s| - 1]) + [s[|s| - 1]] else []
  }

  /** `speaker_name.split()[-1]` (main.py:171-172), when the caption holds a word. */
  function LastWord(s: string): string
  {
    TrailingWord(TrimEnd(s))
  }

  /**
   * The last word is the last whitespace-separated token of the text: it is
   * not empty, holds no whitespace, starts the text or follows whitespace,
   * and only whitespace comes after it.
   */
  lemma LastWordIsLastToken(s: string)
    requires !AllSpace(s)
    ensures var w := LastWord(s); var k := |TrimEnd(s)| - |w|;
      && 0 < |w|
      && 0 <= k && k + |w| <= |s| && s[k..k + |w|] == w
      && (forall i :: 0 <= i < |w| ==> !IsSpace(w[i]))
      && (k == 0 || IsSpace(s[k - 1]))
      && (forall i :: k + |w| <= i < |s| ==> IsSpace(s[i]))
  {
    var t := TrimEnd(s);
    var w := TrailingWord(t);
    TrimEndOfWords(s);
    var k := |t| - |w|;
    SliceOfPrefix(s, t, k);
    if k > 0 {
      assert s[k - 1] == t[k - 1];
    }
  }

  /** Text with a word keeps a last character after trimming, and that character starts a nonempty trailing word. */
  lemma TrimEndOfWords(s: string)
    requires !AllSpace(s)
    ensures |TrimEnd(s)| > 0 && |TrailingWord(TrimEnd(s))| > 0
  {
    var t := TrimEnd(s);
    assert |t| > 0;
    assert !IsSpace(t[|t| - 1]);
  }

  lemma SliceOfPrefix(s: string, t: string, k: int)
    requires t <= s && 0 <= k <= |t|
    ensures s[k..|t|] == t[k..]
  {
  }

  /**
   * The name put into the pattern (main.py:168-177): for the catch-all
   * targets "former" and "other" the last word of the speaker caption, for
   * any other target the target itself.
   */
  function TargetName(target: Option<string>, caption: Option<string>): (r: Result<string, CollectError>)
    ensures r.Err? <==> target.None? || (Speakers.IsCatchAll(target.value) && (caption.None? || AllSpace(caption.value)))
    ensures r.Ok? && !Speakers.IsCatchAll(target.value) ==> r.value == target.value
    ensures r.Ok? && Speakers.IsCatchAll(target.value) ==>
      && caption.Some? && r.value == LastWord(caption.value)
      && 0 < |r.value| && forall i :: 0 <= i < |r.value| ==> !IsSpace(r.value[i])
  {
    match target
    case None => Err(NoTarget)
    case Some(t) =>
      if Speakers.IsCatchAll(t) then
        match caption
        case None => Err(NoCaption)
        case Some(c) =>
          if AllSpace(c) then Err(NoName)
          else
            LastWordIsLastToken(c);
            Ok(LastWord(c))
      else Ok(t)
  }

  /** The hrefs of a page that the pattern for `name` matches, in page order (main.py:179-181). */
  function MatchingLinks(hrefs: seq<string>, name: string): (r: seq<string>)
    ensures |r| <= |hrefs|
  {
    if hrefs == [] then []
    else
      var h := hrefs[|hrefs| - 1];
      MatchingLinks(hrefs[..|hrefs| - 1], name) + if Matches(Pattern(name), h) then [h] else []
  }

  /** Filtering a page split in two is filtering each part; the order of the hrefs is kept. */
  lemma {:induction false} MatchingLinksAppend(a: seq<string>, b: seq<string>, name: string)
    ensures MatchingLinks(a + b, name) == MatchingLinks(a, name) + MatchingLinks(b, name)
  {
    if b != [] {
      var b' := b[..|b| - 1];
      assert (a + b)[..|a + b| - 1] == a + b';
      assert (a + b)[|a + b| - 1] == b[|b| - 1];
      MatchingLinksAppend(a, b', name);
    } else {
      assert a + b == a;
    }
  }

  /** Each matching href is kept as often as the page lists it, duplicates included; no other href is kept. */
  lemma {:induction false} MatchingLinksCount(hrefs: seq<string>, name: string, h: string)
    ensures multiset(MatchingLinks(hrefs, name))[h] ==
      if Matches(Pattern(name), h) then multiset(hrefs)[h] else 0
  {
    if hrefs != [] {
      var init := hrefs[..|hrefs| - 1];
      MatchingLinksCount(init, name, h);
      assert hrefs == init + [hrefs[|hrefs| - 1]];
    }
  }

  /**
   * What one call of `extract_speeches_links` appends for a page: the
   * matching hrefs, or the error raised before the loop starts.
   */
  function PageLinks(target: Option<string>, page: ListingPage): (r: Result<seq<string>, CollectError>)
    ensures r.Err? <==>
      target.None? || (Speakers.IsCatchAll(target.value) && (page.caption.None? || AllSpace(page.caption.value)))
    ensures r.Ok? ==> |r.value| <= |page.hrefs|
  {
    match TargetName(target, page.caption)
    case Err(e) => Err(e)
    case Ok(name) => Ok(MatchingLinks(page.hrefs, name))
  }

  /**
   * What a page yields when the name can be formed: each href of the page
   * as often as the page lists it when the name's pattern matches it, and
   * never otherwise.
   */
  lemma PageLinksCount(target: Option<string>, page: ListingPage, h: string)
    requires PageLinks(target, page).Ok?
    ensures var name := TargetName(target, page.caption).value;
      multiset(PageLinks(target, page).value)[h] == if Matches(Pattern(name), h) then multiset(page.hrefs)[h] else 0
  {
    MatchingLinksCount(page.hrefs, TargetName(target, page.caption).value, h);
  }
}

=== FILE: sanitizer.dfy ===
/**
 * The file-name sanitiser of main.py (`sanitize_filename`) and the space
 * replacement that `generate_document` applies to the whole file name.
 * Both are per-character substitutions, so both are instances of ReplaceAll.
 */
module Sanitizer {

  /** The characters Windows refuses in file names: < > : " / \ | ? * */
  const Forbidden: set<char> := {'<', '>', ':', '"', '/', '\\', '|', '?', '*'}

  /** `s` with every character that is in `bad` replaced by `to`; all other characters are kept. */
  function ReplaceAll(s: string, bad: set<char>, to: char): (r: string)
    ensures |r| == |s|
  {
    if s == [] then [] else [if s[0] in bad then to else s[0]] + ReplaceAll(s[1..], bad, to)
  }

  /** Position by position, ReplaceAll replaces exactly the characters in `bad`. */
  lemma {:induction false} ReplaceAllAt(s: string, bad: set<char>, to: char)
    ensures forall i :: 0 <= i < |s| ==>
      ReplaceAll(s, bad, to)[i] == if s[i] in bad then to else s[i]
  {
    if s != [] {
      ReplaceAllAt(s[1..], bad, to);
      forall i | 1 <= i < |s|
        ensures ReplaceAll(s, bad, to)[i] == if s[i] in bad then to else s[i]
      {
        assert ReplaceAll(s, bad, to)[i] == ReplaceAll(s[1..], bad, to)[i - 1];
        assert s[i] == s[1..][i - 1];
      }
    }
  }

  /** ReplaceAll works character by character, so it distributes over concatenation. */
  lemma {:induction false} ReplaceAllAppend(a: string, b: string, bad: set<char>, to: char)
    ensures ReplaceAll(a + b, bad, to) == ReplaceAll(a, bad, to) + ReplaceAll(b, bad, to)
  {
    ReplaceAllAt(a + b, bad, to);
    ReplaceAllAt(a, bad, to);
    ReplaceAllAt(b, bad, to);
    var lhs, rhs := ReplaceAll(a + b, bad, to), ReplaceAll(a, bad, to) + ReplaceAll(b, bad, to);
    forall i | 0 <= i < |lhs| ensures lhs[i] == rhs[i] {
      if i < |a| {
        assert (a + b)[i] == a[i];
      } else {
        assert (a + b)[i] == b[i - |a|];
      }
    }
  }

  /** `sanitize_filename` (main.py:83-85); it keeps the length of the name. */
  function SanitizeFilename(s: string): (r: string)
    ensures |r| == |s|
  {
    ReplaceAll(s, Forbidden, '_')
  }

  /** Every forbidden character becomes '_'; every other character, spaces included, is kept. */
  lemma SanitizeFilenameAt(s: string)
    ensures forall i :: 0 <= i < |s| ==>
      SanitizeFilename(s)[i] == if s[i] in Forbidden then '_' else s[i]
  {
    ReplaceAllAt(s, Forbidden, '_');
  }

  /** The `.replace(" ", "_")` applied to the whole file name (main.py:143). */
  function ReplaceSpaces(s: string): (r: string)
    ensures |r| == |s|
  {
    ReplaceAll(s, {' '}, '_')
  }

  lemma ReplaceSpacesAt(s: string)
    ensures forall i :: 0 <= i < |s| ==> ReplaceSpaces(s)[i] == if s[i] == ' ' then '_' else s[i]
  {
    ReplaceAllAt(s, {' '}, '_');
  }

  /** A sanitised name holds no forbidden character. */
  lemma SanitizedIsClean(s: string)
    ensures forall i :: 0 <= i < |s| ==> SanitizeFilename(s)[i] !in Forbidden
  {
    SanitizeFilenameAt(s);
  }

  /** A string holding none of the characters to replace is left as it is. */
  lemma ReplaceAllKeeps(s: string, bad: set<char>, to: char)
    requires forall c :: c in s ==> c !in bad
    ensures ReplaceAll(s, bad, to) == s
  {
    ReplaceAllAt(s, bad, to);
    forall i | 0 <= i < |s| ensures ReplaceAll(s, bad, to)[i] == s[i] {
      assert s[i] in s;
    }
  }

  /** Sanitising twice is sanitising once. */
  lemma SanitizeIdempotent(s: string)
    ensures SanitizeFilename(SanitizeFilename(s)) == SanitizeFilename(s)
  {
    var once := SanitizeFilename(s);
    var twice := SanitizeFilename(once);
    SanitizeFilenameAt(s);
    SanitizeFilenameAt(once);
    forall i | 0 <= i < |s| ensures twice[i] == once[i] {
      assert once[i] !in Forbidden;
    }
  }

  /** Replacing spaces leaves a string without spaces and adds no forbidden character. */
  lemma ReplaceSpacesClean(s: string)
    requires forall i :: 0 <= i < |s| ==> s[i] !in Forbidden
    ensures forall i :: 0 <= i < |s| ==> ReplaceSpaces(s)[i] != ' ' && ReplaceSpaces(s)[i] !in Forbidden
  {
    ReplaceSpacesAt(s);
  }

  /** The space replacement distributes over concatenation. */
  lemma ReplaceSpacesAppend(a: string, b: string)
    ensures ReplaceSpaces(a + b) == ReplaceSpaces(a) + ReplaceSpaces(b)
  {
    ReplaceAllAppend(a, b, {' '}, '_');
  }
}

=== FILE: scraper.dfy ===
/**
 * The scraper's driver: the options object that hands out the browser and
 * the speaker, and the scraper object that collects speech links page by
 * page and then writes one file per speech.
 */
module Scraper {
  import opened Wrappers
  import opened Seqs
  import Speakers
  import opened Links
  import opened Article
  import opened Web

  /** `get_driver` raises KeyError for a speaker missing from the table. */
  datatype SetupError = UnknownSpeaker

  /** The browser options: the browser the constructor launched, if any, and the speaker to scrape. */
  class SeleniumOptions {
    var driver: Browser?
    var speaker: string

    /**
     * The outcome of the constructor: `driver` is the session it launched,
     * or null when launching failed and the error was swallowed.
     */
    constructor(driver: Browser?, speaker: string)
      ensures this.driver == driver && this.speaker == speaker
    {
      this.driver := driver;
      this.speaker := speaker;
    }

    /** `get_driver` (main.py:71-72): the browser, the speaker's checkbox position and the speaker. */
    method GetDriver() returns (r: Result<(Browser?, nat, string), SetupError>)
      ensures r.Ok? <==> speaker in Speakers.Table
      ensures r.Ok? ==> r.value.0 == driver && r.value.2 == speaker
      ensures r.Ok? ==> Speakers.SpeakerAt(r.value.1) == Some(speaker)
    {
      var index := Speakers.CheckboxIndex(speaker);
      if index.None? {
        return Err(UnknownSpeaker);
      }
      Speakers.KeysRoundTrip(speaker);
      return Ok((driver, index.value, speaker));
    }
  }

  /**
   * Where the pagination loop stands when it ends: the links collected, the
   * page counter and the listing page on screen.
   */
  datatype Walk = Walk(links: seq<string>, current: int, page: nat)

  /**
   * The pagination loop of `run` (main.py:208-225) from page counter
   * `current`, with listing page `page` on screen and `acc` collected: while
   * the counter is below `total`, collect the page's links, then click Next
   * and count one more page; an error in either ends the loop.
   */
  function CollectFrom(target: Option<string>, pages: seq<ListingPage>, total: int, current: int, page: nat,
                       acc: seq<string>): Walk
    decreases total - current
  {
    if current >= total then Walk(acc, current, page)
    else
      match PageLinks(target, PageAt(pages, page))
      case Err(_) => Walk(acc, current, page)
      case Ok(found) =>
        if !PageAt(pages, page).hasNext then Walk(acc + found, current, page)
        else CollectFrom(target, pages, total, current + 1, page + 1, acc + found)
  }

  /** One step of CollectFrom, seen from the links `found` on the page on screen. */
  lemma CollectStep(target: Option<string>, pages: seq<ListingPage>, total: int, current: int, page: nat,
                    acc: seq<string>, found: Result<seq<string>, CollectError>, w: Walk)
    requires current < total && found == PageLinks(target, PageAt(pages, page))
    requires CollectFrom(target, pages, total, current, page, acc) == w
    ensures found.Err? ==> w == Walk(acc, current, page)
    ensures found.Ok? && !PageAt(pages, page).hasNext ==> w == Walk(acc + found.value, current, page)
    ensures found.Ok? && PageAt(pages, page).hasNext ==>
      CollectFrom(target, pages, total, current + 1, page + 1, acc + found.value) == w
  {
  }

  /** The loop only adds links: what was collected before stays, in front. */
  lemma {:induction false} CollectKeepsEarlierLinks(target: Option<string>, pages: seq<ListingPage>, total: int,
                                                    current: int, page: nat, acc: seq<string>)
    ensures acc <= CollectFrom(target, pages, total, current, page, acc).links
    decreases total - current
  {
    if current < total {
      var r := PageLinks(target, PageAt(pages, page));
      if r.Ok? && PageAt(pages, page).hasNext {
        CollectKeepsEarlierLinks(target, pages, total, current + 1, page + 1, acc + r.value);
      }
    }
  }

  /**
   * The counter only grows, never past `total` when it starts below it, and
   * the page on screen moves with it: the loop makes at most
   * `total - current` clicks.
   */
  lemma {:induction false} CollectBounds(target: Option<string>, pages: seq<ListingPage>, total: int,
                                         current: int, page: nat, acc: seq<string>)
    ensures var w := CollectFrom(target, pages, total, current, page, acc);
      && current <= w.current
      && (current <= total ==> w.current <= total)
      && w.page - page == w.current - current
    decreases total - current
  {
    if current < total {
      var r := PageLinks(target, PageAt(pages, page));
      CollectStep(target, pages, total, current, page, acc, r, CollectFrom(target, pages, total, current, page, acc));
      if r.Ok? && PageAt(pages, page).hasNext {
        CollectBounds(target, pages, total, current + 1, page + 1, acc + r.value);
      }
    }
  }

  /**
   * Only the listing pages `page` to `page + total - current - 1` are read:
   * starting from counter 1 on the first page, the last of the `total`
   * pages is never scraped.
   */
  lemma {:induction false} CollectReadsOnly(target: Option<string>, pages: seq<ListingPage>, other: seq<ListingPage>,
                                            total: int, current: int, page: nat, acc: seq<string>)
    requires forall j :: page <= j < page + (total - current) ==> PageAt(pages, j) == PageAt(other, j)
    ensures CollectFrom(target, pages, total, current, page, acc) == CollectFrom(target, other, total, current, page, acc)
    decreases total - current
  {
    if current < total {
      assert PageAt(pages, page) == PageAt(other, page);
      var r := PageLinks(target, PageAt(pages, page));
      CollectStep(target, pages, total, current, page, acc, r, CollectFrom(target, pages, total, current, page, acc));
      CollectStep(target, other, total, current, page, acc, r, CollectFrom(target, other, total, current, page, acc));
      if r.Ok? && PageAt(pages, page).hasNext {
        CollectReadsOnly(target, pages, other, total, current + 1, page + 1, acc + r.value);
      }
    }
  }

  /**
   * Six pagination links (previous, four numbers, next) give four pages:
   * when the first three pages all yield links and a Next button, exactly
   * their links are collected, in page order, and the fourth is skipped.
   */
  lemma SixAnchorsScrapeThreePages(target: Option<string>, pages: seq<ListingPage>, acc: seq<string>)
    requires forall j :: 0 <= j < 3 ==> PageLinks(target, PageAt(pages, j)).Ok? && PageAt(pages, j).hasNext
    ensures CollectFrom(target, pages, 6 - 2, 1, 0, acc) ==
      Walk(acc + PageLinks(target, PageAt(pages, 0)).value + PageLinks(target, PageAt(pages, 1)).value
               + PageLinks(target, PageAt(pages, 2)).value, 4, 3)
  {
    var f0 := PageLinks(target, PageAt(pages, 0)).value;
    var f1 := PageLinks(target, PageAt(pages, 1)).value;
    var f2 := PageLinks(target, PageAt(pages, 2)).value;
    assert CollectFrom(target, pages, 4, 3, 2, acc + f0 + f1) == Walk(acc + f0 + f1 + f2, 4, 3);
    assert CollectFrom(target, pages, 4, 2, 1, acc + f0) == Walk(acc + f0 + f1 + f2, 4, 3);
  }

  /** The files the extraction loop writes, and where it stopped if a speech failed. */
  datatype Extraction = Extraction(files: seq<OutputFile>, failure: Option<(nat, ExtractError)>)

  /** What `generate_document` makes of each link in turn, the site being fixed. */
  function Attempts(links: seq<string>, detail: string -> DetailPage): (r: seq<Result<OutputFile, ExtractError>>)
    ensures |r| == |links|
  {
    if links == [] then []
    else Attempts(links[..|links| - 1], detail) + [Generate(detail(links[|links| - 1]))]
  }

  /** The outcome for link `j` is what its own page yields. */
  lemma {:induction false} AttemptsAt(links: seq<string>, detail: string -> DetailPage, j: nat)
    requires j < |links|
    ensures Attempts(links, detail)[j] == Generate(detail(links[j]))
  {
    if j < |links| - 1 {
      AttemptsAt(links[..|links| - 1], detail, j);
    }
  }

  /**
   * The extraction loop of `run` (main.py:231-232) from link `i` on, given
   * what each link yields: each success adds its file, and the first failure
   * ends the loop.
   */
  function ExtractFrom(results: seq<Result<OutputFile, ExtractError>>, i: nat): Extraction
    decreases |results| - i
  {
    if i >= |results| then Extraction([], None)
    else
      match results[i]
      case Err(e) => Extraction([], Some((i, e)))
      case Ok(f) =>
        var rest := ExtractFrom(results, i + 1);
        Extraction([f] + rest.files, rest.failure)
  }

  /** One pass of the extraction loop, from the files `done` before link `i`. */
  lemma ExtractStep(results: seq<Result<OutputFile, ExtractError>>, i: nat, done: seq<OutputFile>)
    requires i < |results|
    requires ExtractFrom(results, 0) == Extraction(done + ExtractFrom(results, i).files, ExtractFrom(results, i).failure)
    ensures results[i].Err? ==> ExtractFrom(results, 0) == Extraction(done, Some((i, results[i].error)))
    ensures results[i].Ok? ==>
      var rest := ExtractFrom(results, i + 1);
      ExtractFrom(results, 0) == Extraction(done + [results[i].value] + rest.files, rest.failure)
  {
    if results[i].Err? {
      assert done + [] == done;
    } else {
      ConcatAssoc(done, [results[i].value], ExtractFrom(results, i + 1).files);
    }
  }

  /**
   * The links are handled in order: every link before the stopping point
   * yields its file, in order, and the loop stops at the first link that
   * fails, or handles all of them.
   */
  lemma {:induction false} ExtractionStopsAtFirstFailure(results: seq<Result<OutputFile, ExtractError>>, i: nat)
    requires i <= |results|
    ensures var x := ExtractFrom(results, i);
      var stop := if x.failure.Some? then x.failure.value.0 else |results|;
      && i <= stop <= |results|
      && |x.files| == stop - i
      && (forall j :: i <= j < stop ==> results[j] == Ok(x.files[j - i]))
      && (x.failure.Some? ==> stop < |results| && results[stop] == Err(x.failure.value.1))
    decreases |results| - i
  {
    if i < |results| && results[i].Ok? {
      ExtractionStopsAtFirstFailure(results, i + 1);
    }
  }

  /**
   * Two links whose second speech page fails: exactly one file is produced,
   * the first link's, and the failure is reported at the second link.
   */
  lemma TwoLinksSecondFails(a: string, b: string, detail: string -> DetailPage, f: OutputFile, e: ExtractError)
    requires Generate(detail(a)) == Ok(f) && Generate(detail(b)) == Err(e)
    ensures ExtractFrom(Attempts([a, b], detail), 0) == Extraction([f], Some((1, e)))
  {
    var results := Attempts([a, b], detail);
    AttemptsAt([a, b], detail, 0);
    AttemptsAt([a, b], detail, 1);
    assert ExtractFrom(results, 1) == Extraction([], Some((1, e)));
  }

  /** Why `run` ends with an exception that nothing catches, before any teardown. */
  datatype Crash =
    | NoDriver      // no browser was launched: every use of `self.driver` fails
    | NoCheckbox    // the filter checkbox for the position is missing (or there is no position)
    | NoPagination  // the pagination list is missing from the listing

  /** How `run` ends: with an uncaught exception, or after the teardown, with the first failed speech if any. */
  datatype Outcome = Crashed(reason: Crash) | Finished(failure: Option<(nat, ExtractError)>)

  /** The scraper (`TestGetPowellsLinks`, main.py:75-236). */
  class TestGetPowellsLinks {
    var speechLinks: seq<string>
    var nthChild: Option<nat>
    var target: Option<string>
    var driver: Browser?

    /** main.py:77-80 */
    constructor()
      ensures speechLinks == [] && nthChild == None && target == None && driver == null
    {
      speechLinks := [];
      nthChild := None;
      target := None;
      driver := null;
    }

    /**
     * `setup_method` (main.py:184-186): take the browser, the checkbox
     * position and the speaker from the options; an unknown speaker raises
     * before any of them is assigned.
     */
    method SetupMethod(options: SeleniumOptions) returns (r: Result<(), SetupError>)
      modifies this`driver, this`nthChild, this`target
      ensures r.Ok? <==> options.speaker in Speakers.Table
      ensures r.Ok? ==> driver == options.driver && target == Some(options.speaker)
                        && nthChild == Speakers.CheckboxIndex(options.speaker)
      ensures r.Err? ==> driver == old(driver) && nthChild == old(nthChild) && target == old(target)
    {
      var got := options.GetDriver();
      if got.Err? {
        return Err(got.error);
      }
      Speakers.LookupIsInverse(options.speaker, got.value.1);
      driver, nthChild, target := got.value.0, Some(got.value.1), Some(got.value.2);
      return Ok(());
    }

    /** `select_target` (main.py:157-161): filter the listing by the speaker's checkbox. */
    method SelectTarget() returns (ok: bool)
      requires driver != null
      modifies driver`listing, driver`page
      ensures ok <==> nthChild.Some? && nthChild.value in driver.site.listings
      ensures ok ==> driver.listing == driver.site.listings[nthChild.value] && driver.page == 0
      ensures !ok ==> driver.listing == old(driver.listing) && driver.page == old(driver.page)
    {
      ok := driver.Filter(nthChild);
    }

    /**
     * `extract_speeches_links` (main.py:164-181): append to the speech links
     * every href of the page on screen that the target's pattern matches, in
     * page order; when the name cannot be formed nothing is appended.
     */
    method ExtractSpeechesLinks() returns (r: Result<(), CollectError>)
      requires driver != null
      modifies this`speechLinks
      ensures match PageLinks(target, driver.Current())
        case Ok(found) => r.Ok? && speechLinks == old(speechLinks) + found
        case Err(e) => r == Err(e) && speechLinks == old(speechLinks)
    {
      var page := driver.Current();
      var name := TargetName(target, page.caption);
      if name.Err? {
        return Err(name.error);
      }
      for i := 0 to |page.hrefs|
        invariant speechLinks == old(speechLinks) + MatchingLinks(page.hrefs[..i], name.value)
      {
        assert page.hrefs[..i + 1][..i] == page.hrefs[..i];
        if Matches(Pattern(name.value), page.hrefs[i]) {
          speechLinks := speechLinks + [page.hrefs[i]];
        }
      }
      assert page.hrefs[..|page.hrefs|] == page.hrefs;
      return Ok(());
    }

    /**
     * One pass of the pagination loop body (main.py:209-225): collect the
     * links of the page on screen, then click Next; `more` is false when
     * either fails and the loop breaks.
     */
    method PaginateStep(ghost total: int, ghost current: int) returns (more: bool)
      requires driver != null && current < total
      modifies this`speechLinks, driver`page
      ensures var w := CollectFrom(target, driver.listing.pages, total, current, old(driver.page), old(speechLinks));
        if more then CollectFrom(target, driver.listing.pages, total, current + 1, driver.page, speechLinks) == w
        else w == Walk(speechLinks, current, driver.page)
    {
      ghost var found := PageLinks(target, driver.Current());
      CollectStep(target, driver.listing.pages, total, current, driver.page, speechLinks, found,
                  CollectFrom(target, driver.listing.pages, total, current, driver.page, speechLinks));
      var r := ExtractSpeechesLinks();
      if r.Err? {
        return false;
      }
      more := driver.ClickNext();
    }

    /**
     * The pagination loop of `run` (main.py:208-225) for `total` pages: it
     * collects exactly what CollectFrom describes from counter 1 and returns
     * the final counter.
     */
    method Paginate(total: int) returns (last: int)
      requires driver != null
      modifies this`speechLinks, driver`page
      ensures var w := CollectFrom(target, driver.listing.pages, total, 1, old(driver.page), old(speechLinks));
        speechLinks == w.links && last == w.current && driver.page == w.page
    {
      ghost var pages := driver.listing.pages;
      ghost var w := CollectFrom(target, pages, total, 1, driver.page, speechLinks);
      var current := 1;
      while current < total
        invariant driver.listing.pages == pages
        invariant CollectFrom(target, pages, total, current, driver.page, speechLinks) == w
        decreases total - current
      {
        var more := PaginateStep(total, current);
        if !more {
          break;
        }
        current := current + 1;
      }
      last := current;
    }

    /**
     * `generate_document` (main.py:87-154): open the link, and write the
     * speech's file when every field is there and the date parses; on an
     * error nothing is written.
     */
    method GenerateDocument(link: string, dir: DataDirectory) returns (r: Result<OutputFile, ExtractError>)
      requires driver != null
      modifies dir
      ensures r == Generate(driver.site.detail(link))
      ensures dir.files == if r.Ok? then old(dir.files)[r.value.name := r.value.content] else old(dir.files)
    {
      r := Generate(driver.site.detail(link));
      if r.Ok? {
        dir.Write(r.value.name, r.value.content);
      }
    }

    /** The extraction loop of `run` (main.py:231-232): what ExtractFrom describes, written in order. */
    method ExtractAll(dir: DataDirectory) returns (failure: Option<(nat, ExtractError)>)
      requires driver != null
      modifies dir
      ensures var x := ExtractFrom(Attempts(speechLinks, driver.site.detail), 0);
        failure == x.failure && dir.files == WriteAll(old(dir.files), x.files)
    {
      ghost var results := Attempts(speechLinks, driver.site.detail);
      ghost var done: seq<OutputFile> := [];
      for i := 0 to |speechLinks|
        invariant ExtractFrom(results, 0) ==
          Extraction(done + ExtractFrom(results, i).files, ExtractFrom(results, i).failure)
        invariant dir.files == WriteAll(old(dir.files), done)
      {
        var r := GenerateDocument(speechLinks[i], dir);
        AttemptsAt(speechLinks, driver.site.detail, i);
        ExtractStep(results, i, done);
        if r.Err? {
          return Some((i, r.error));
        }
        done := done + [r.value];
      }
      assert done + [] == done;
      return None;
    }

    /** `teardown_method` (main.py:189-190). */
    method TeardownMethod()
      requires driver != null
      modifies driver`quits
      ensures driver.quits == old(driver.quits) + 1
    {
      driver.Quit();
    }

    /**
     * `run` (main.py:193-236): filter by the speaker, count the pages as the
     * pagination links less two, collect the links page by page, write one
     * file per link until the first failure, and quit the browser exactly
     * once; a missing browser, checkbox or pagination list ends it with an
     * uncaught error before anything is collected and without a teardown.
     */
    method Run(dir: DataDirectory) returns (outcome: Outcome)
      modifies this`speechLinks, driver, dir
      ensures driver == null ==> outcome == Crashed(NoDriver) && speechLinks == old(speechLinks)
                                 && dir.files == old(dir.files)
      ensures driver != null && !(nthChild.Some? && nthChild.value in driver.site.listings) ==>
        && outcome == Crashed(NoCheckbox) && speechLinks == old(speechLinks)
        && dir.files == old(dir.files) && driver.quits == old(driver.quits)
      ensures driver != null && nthChild.Some? && nthChild.value in driver.site.listings ==>
        var listing := driver.site.listings[nthChild.value];
        && (listing.anchors.None? ==>
              outcome == Crashed(NoPagination) && speechLinks == old(speechLinks)
              && dir.files == old(dir.files) && driver.quits == old(driver.quits))
        && (listing.anchors.Some? ==>
              var w := CollectFrom(target, listing.pages, listing.anchors.value - 2, 1, 0, old(speechLinks));
              var x := ExtractFrom(Attempts(w.links, driver.site.detail), 0);
              && speechLinks == w.links
              && dir.files == WriteAll(old(dir.files), x.files)
              && outcome == Finished(x.failure)
              && driver.quits == old(driver.quits) + 1)
    {
      if driver == null {
        return Crashed(NoDriver);
      }
      var ok := SelectTarget();
      if !ok {
        return Crashed(NoCheckbox);
      }
      var anchors := driver.listing.anchors;
      if anchors.None? {
        return Crashed(NoPagination);
      }
      var total := anchors.value as int - 2;
      var _ := Paginate(total);
      var failure := ExtractAll(dir);
      TeardownMethod();
      return Finished(failure);
    }
  }

  /**
   * The script's entry (main.py:239-243): a fresh scraper set up for
   * "powell" with the browser the options launched, then run. Setting up
   * never fails for "powell": the run filters by checkbox 1 and collects
   * links whose name is "powell", starting from no links; the browser is
   * quit once exactly when the run gets past its setup steps.
   */
  method Script(launched: Browser?, dir: DataDirectory) returns (outcome: Outcome)
    modifies launched, dir
    ensures launched == null ==> outcome == Crashed(NoDriver) && dir.files == old(dir.files)
    ensures launched != null ==> launched.quits == old(launched.quits) + if outcome.Finished? then 1 else 0
    ensures launched != null && 1 !in launched.site.listings ==>
      outcome == Crashed(NoCheckbox) && dir.files == old(dir.files)
    ensures launched != null && 1 in launched.site.listings ==>
      var listing := launched.site.listings[1];
      && (listing.anchors.None? ==> outcome == Crashed(NoPagination) && dir.files == old(dir.files))
      && (listing.anchors.Some? ==>
            var w := CollectFrom(Some("powell"), listing.pages, listing.anchors.value - 2, 1, 0, []);
            var x := ExtractFrom(Attempts(w.links, launched.site.detail), 0);
            dir.files == WriteAll(old(dir.files), x.files) && outcome == Finished(x.failure))
  {
    var speeches := new TestGetPowellsLinks();
    var options := new SeleniumOptions(launched, "powell");
    var setup := speeches.SetupMethod(options);
    assert "powell" in Speakers.Table;
    assert setup.Ok?;
    outcome := speeches.Run(dir);
  }
}

=== FILE: seqs.dfy ===
/** Facts about sequences that several modules use. */
module Seqs {
  lemma ConcatAssoc<T>(a: seq<T>, b: seq<T>, c: seq<T>)
    ensures a + (b + c) == (a + b) + c
  {
  }
}

=== FILE: speakers.dfy ===
/**
 * The speaker filter of the speeches listing: each speaker the scraper knows
 * is one checkbox of the filter panel, found by its position among the
 * checkboxes.
 */
module Speakers {
  import opened Wrappers

  /** The `_speakers` table (main.py:27-37): speaker key to checkbox position. */
  const Table: map<string, nat> := map[
    "powell" := 1, "jefferson" := 2, "barr" := 3, "bowman" := 4, "cook" := 6,
    "kugler" := 7, "waller" := 8, "former" := 9, "other" := 10]

  /**
   * `self._speakers[self.speaker]` in `get_driver` (main.py:72): the checkbox
   * position of a speaker, or None where Python raises KeyError.
   */
  function CheckboxIndex(speaker: string): (r: Option<nat>)
    ensures r.Some? <==> speaker in Table
    ensures r.Some? ==> 1 <= r.value <= 10 && r.value != 5
  {
    if speaker in Table then Some(Table[speaker]) else None
  }

  /** The table read the other way: the speaker whose checkbox sits at a position, if any. */
  ghost function SpeakerAt(index: nat): Option<string>
  {
    if exists k :: k in Table && Table[k] == index then
      Some(var k :| k in Table && Table[k] == index; k)
    else None
  }

  /** The two catch-all entries whose speeches are captioned with the speaker's own name. */
  predicate IsCatchAll(speaker: string)
  {
    speaker == "former" || speaker == "other"
  }

  /** No two speakers share a checkbox. */
  lemma TableInjective(a: string, b: string)
    requires a in Table && b in Table && Table[a] == Table[b]
    ensures a == b
  {
  }

  /** Every key of the table maps to its checkbox and back. */
  lemma KeysRoundTrip(speaker: string)
    requires speaker in Table
    ensures SpeakerAt(Table[speaker]) == Some(speaker)
  {
    var k := SpeakerAt(Table[speaker]).value;
    TableInjective(k, speaker);
  }

  /** Every position named by the table comes from exactly one key. */
  lemma IndexRoundTrip(index: nat)
    requires SpeakerAt(index).Some?
    ensures CheckboxIndex(SpeakerAt(index).value) == Some(index)
  {
  }

  /** The lookup and its inverse agree in both directions. */
  lemma LookupIsInverse(speaker: string, index: nat)
    ensures CheckboxIndex(speaker) == Some(index) <==> SpeakerAt(index) == Some(speaker)
  {
    if speaker in Table {
      KeysRoundTrip(speaker);
    }
    if SpeakerAt(index).Some? {
      IndexRoundTrip(index);
    }
  }

  /** The positions in use: 1 to 10 with 5 skipped; the catch-all entries sit at 9 and 10. */
  lemma TablePositions(index: nat)
    ensures SpeakerAt(index).Some? <==> 1 <= index <= 10 && index != 5
    ensures SpeakerAt(index).Some? && IsCatchAll(SpeakerAt(index).value) <==> index == 9 || index == 10
  {
    // The witnesses: the key at each position in use.
    var keys := ["powell", "jefferson", "barr", "bowman", "", "cook", "kugler", "waller", "former", "other"];
    if 1 <= index <= 10 && index != 5 {
      KeysRoundTrip(keys[index - 1]);
    }
    if SpeakerAt(index).Some? {
      var k := SpeakerAt(index).value;
      if IsCatchAll(k) {
        assert Table[k] == 9 || Table[k] == 10;
      }
    }
  }
}

=== FILE: web.dfy ===
/**
 * The outside world of the scraper, reduced to data: the site the browser
 * shows, the browser's position in it, and the directory the speeches are
 * written to.
 */
module Web {
  import opened Wrappers
  import opened Links
  import opened Article

  /**
   * A filtered speeches listing: how many links the pagination list holds
   * (None when the list is missing) and the listing pages in order.
   */
  datatype Listing = Listing(anchors: Option<nat>, pages: seq<ListingPage>)

  /**
   * The site: for each checkbox position of the speaker filter, the listing
   * that ticking it shows (a position without a checkbox is absent), and the
   * speech page behind each URL.
   */
  datatype Site = Site(listings: map<nat, Listing>, detail: string -> DetailPage)

  /** The listing page at a position; past the last one, a page without links, caption or Next button. */
  function PageAt(pages: seq<ListingPage>, i: nat): ListingPage
  {
    if i < |pages| then pages[i] else ListingPage([], None, false)
  }

  /** A WebDriver session: the listing it shows, the page of it on screen, and how often it was quit. */
  class Browser {
    const site: Site
    var listing: Listing
    var page: nat
    var quits: nat

    constructor(site: Site)
      ensures this.site == site && listing == Listing(None, []) && page == 0 && quits == 0
    {
      this.site := site;
      listing := Listing(None, []);
      page := 0;
      quits := 0;
    }

    /** The listing page on screen. */
    function Current(): ListingPage
      reads this
    {
      PageAt(listing.pages, page)
    }

    /**
     * Open the speeches page, tick the checkbox at position `nth` and expand
     * the results; it fails when there is no position or no such checkbox.
     */
    method Filter(nth: Option<nat>) returns (ok: bool)
      modifies this`listing, this`page
      ensures ok <==> nth.Some? && nth.value in site.listings
      ensures ok ==> listing == site.listings[nth.value] && page == 0
      ensures !ok ==> listing == old(listing) && page == old(page)
    {
      ok := nth.Some? && nth.value in site.listings;
      if ok {
        listing := site.listings[nth.value];
        page := 0;
      }
    }

    /** Click the Next button of the pagination; it fails when the page has none. */
    method ClickNext() returns (ok: bool)
      modifies this`page
      ensures ok == old(Current()).hasNext
      ensures page == if ok then old(page) + 1 else old(page)
    {
      ok := Current().hasNext;
      if ok {
        page := page + 1;
      }
    }

    method Quit()
      modifies this`quits
      ensures quits == old(quits) + 1
    {
      quits := quits + 1;
    }
  }

  /** The `data` directory: file name to content. */
  class DataDirectory {
    var files: map<string, string>

    constructor(files: map<string, string>)
      ensures this.files == files
    {
      this.files := files;
    }

    /** `open(path, 'w')` then `write`: the file is created or overwritten. */
    method Write(name: string, content: string)
      modifies this
      ensures files == old(files)[name := content]
    {
      files := files[name := content];
    }
  }

  /** The directory after writing the given files one after the other. */
  function WriteAll(files: map<string, string>, outs: seq<OutputFile>): map<string, string>
  {
    if outs == [] then files
    else
      var last := outs[|outs| - 1];
      WriteAll(files, outs[..|outs| - 1])[last.name := last.content]
  }

  /** A name written at least once holds the content of its last write. */
  lemma {:induction false} WriteAllLast(files: map<string, string>, outs: seq<OutputFile>, j: nat)
    requires j < |outs| && forall k :: j < k < |outs| ==> outs[k].name != outs[j].name
    ensures outs[j].name in WriteAll(files, outs)
    ensures WriteAll(files, outs)[outs[j].name] == outs[j].content
  {
    if j < |outs| - 1 {
      WriteAllLast(files, outs[..|outs| - 1], j);
    }
  }

  /** A name never written keeps whatever the directory held under it. */
  lemma {:induction false} WriteAllElsewhere(files: map<string, string>, outs: seq<OutputFile>, name: string)
    requires forall k :: 0 <= k < |outs| ==> outs[k].name != name
    ensures name in WriteAll(files, outs) <==> name in files
    ensures name in files ==> WriteAll(files, outs)[name] == files[name]
  {
    if outs != [] {
      WriteAllElsewhere(files, outs[..|outs| - 1], name);
    }
  }
}

=== FILE: wrappers.dfy ===
/** Option and Result, used for the scraper's absent page elements and its exceptions. */
module Wrappers {

  /** A value that may be absent: a page element that was not found, a field not yet set. */
  datatype Option<+T> = None | Some(value: T)

  /** The outcome of an operation that raises in the source: a value or the error raised. */
  datatype Result<+T, +E> = Ok(value: T) | Err(error: E)
}
